=== FILE: README.md ===
# Steganography core in Dafny

This project models the integer logic at the centre of `stego_core.py`, a
steganography toolkit with three parts.

**Adaptive pixel-value-differencing (PVD) image codec.** `embending` is the
quantisation table. It sends a pixel difference of 0..255 to an interval of
width 2, 4, 8, 16, 32 or 64, and that width fixes how many bits the pair
carries. `change_diff` moves the two values of a pair so that their
difference changes by a given amount. `pvd_store` writes a 32-bit
bit-count header and then the body into the usable slots in traversal
order. It stops once the frame is written, and silently cuts the frame
short when the slots run out. `pvd_unstore`
reads the slots back. `bin_to_bytes_readable` turns the recovered bits into
bytes.

The image is modelled as the flat sequence of its slots in traversal order.
A slot is one channel of two horizontally adjacent pixels. Rows go top to
bottom. Within a row the column pairs go up to the width rounded down to
even. Within a pair the channels go 0, 1, 2. Store and unstore are folds
over that sequence, and both use the same skip predicate (`Pvd.Usable`).

**Audio LSB codec.** `embed_data_in_audio_DE` and `extract_data_from_audio_DE`
work on 16-bit samples. The frame is the payload length as four big-endian
bytes, then four checksum bytes, then the payload. Each frame bit goes into
the least significant bit of one sample.

**Encryption envelope.** `aes_encrypt` lays out nonce, tag and ciphertext.
`aes_decrypt` slices them back apart. `ecc_derive_shared_key` derives the
AES-128 key.

The modules follow the program's structure:

- `Bits`: binary strings, `bin`, `zfill`, `lstrip`, `int(s, 2)`, and big-endian bytes.
- `Quantize`: `embending` and `change_diff`.
- `Pvd`: the image codec as written, together with a corrected embedder and reader.
- `TrimExample`: a concrete input that shows the final-slot trim going wrong.
- `Audio`: the sample loops.
- `Utf8`: Python's strict UTF-8 codec.
- `Envelope`: the AES-EAX envelope and key derivation.
- `Results`: the result type used for error paths.

The cryptographic primitives SHA-256, MD5, the AES-EAX keystream and the
EAX tag are uninterpreted function parameters with fixed output lengths.
The random nonce is a parameter too.

Pixel values are `byte` (0..255). Arithmetic on them is unbounded.
`stego_core.py:75` and `stego_core.py:88` subtract the `uint8` difference
`dif` from a Python integer (`maxr - dif`, `new_dif - dif`) and pass NumPy
`uint8` scalars on to `change_diff`. At run time these subtractions, and the
ones inside `change_diff`, could wrap modulo 256. The
model assumes they do not: it follows the evident intent of the range checks
at `stego_core.py:38`.

`aes_decrypt` requires at least 48 bytes (`stego_core.py:175`).

## Model

| member | source | states |
|---|---|---|
| `Quantize.BisectRight` | stego_core.py:22 | `bisect_right` on the table gives the number of boundaries that are at most `n`, so the entry after that count exceeds `n` |
| `Quantize.Log2` | stego_core.py:23 | `int(np.log2(w))` is the exponent `e` with `2^e <= w < 2^(e+1)` |
| `Quantize.Embending` | stego_core.py:20-23 | every difference 0..255 lies in its interval, `lower <= n <= upper`; the interval is `2^bits` wide, with 1 to 6 bits |
| `Quantize.EmbendingOnInterval` | stego_core.py:20-23 | every difference of one interval gets the same `(lower, bits, maxr)` triple |
| `Quantize.ChangeDiff` | stego_core.py:25-49 | the change fails, returning `(False, 0, 0)`, exactly when a widening lacks half its amount of room below the smaller or above the larger value, or when an odd widening finds exactly half on both sides; a narrowing never fails, and a zero change returns the pair unchanged |
| `Quantize.ChangeDiffMoves` | stego_core.py:35-49 | a successful change keeps both values in 0..255, makes the difference exactly `abs(r - l) + diff`, and leaves the larger value where it was |
| `Quantize.ChangeDiffSum` | stego_core.py:41-44 | an even change keeps the pair's sum; an odd change moves the sum by one, towards 255 unless the sum is already 255 |
| `Quantize.ChangeDiffRoom` | stego_core.py:35-39 | a widening by `w` succeeds if and only if each side has room for half of it and the two sides together have room for all of it |
| `Quantize.ChangeDiffRooms` | stego_core.py:35-44 | after a change the total room shrinks by the change; the smaller room shrinks by half of it, and by one more only when an odd change starts from equal rooms |
| `Quantize.RoomKept` | stego_core.py:41-44 | rooms that allowed a widening to the top still allow the rest of it after a partial move |
| `Quantize.WideningStaysPossible` | stego_core.py:74-92 | a pair that the probe can widen to the top of its interval can be moved to any difference in that interval, and it can still be widened to the top afterwards |
| `Pvd.ReadSlot` | stego_core.py:121-123 | a slot reads as exactly `bits` bits whose value is `dif - lower` |
| `Pvd.SlotMoves` | stego_core.py:87-92 | in a usable slot, moving the difference to any value of its interval succeeds, keeps both values 8-bit, and keeps the order |
| `Pvd.SlotStable` | stego_core.py:72-92 | after such a move the slot lies in the same interval and the probe still accepts it |
| `Pvd.WriteSlot` | stego_core.py:87-92 | writing `n` bits into a usable slot keeps its interval and usability, and the slot reads back exactly those bits |
| `Pvd.Chunk` | stego_core.py:79-83 | a slot takes the next `n` bits, or all the bits that are left padded on the right with zeros |
| `Pvd.Drop` | stego_core.py:79-85 | the bits left after a slot are those it did not take: the stream from bit `n` on when it still holds `n` bits, and none when it holds fewer |
| `Pvd.ChunkThenDrop` | stego_core.py:79-85 | a slot's chunk followed by the bits left after it is the stream again when the stream holds `n` bits; otherwise nothing is left and the chunk is the stream padded with zeros |
| `Pvd.Usable` | stego_core.py:74-77 | a slot is skipped exactly when widening it to the top of its interval needs more than the room below its smaller value or above its larger value can give: each room must hold half the widening and the two together all of it |
| `Pvd.Plan` | stego_core.py:68-77 | the layout has at most one width per slot, and each width is 1 to 6 bits |
| `Pvd.Blocks` | stego_core.py:114-123 | the reader takes one bit group per usable slot |
| `Pvd.Store` | stego_core.py:68-99 | the write loop keeps the number of slots |
| `Pvd.StoreCarries` | stego_core.py:68-99 | the write loop keeps the same usable slots with the same widths, and it leaves in them exactly the chunks of the stream, in order; skipped slots keep their pixels, and so does every slot after the first `k` once those `k` can hold the stream |
| `Pvd.StoreKeepsSkipped` | stego_core.py:74-77 | a slot the probe rejects keeps its pixels |
| `Pvd.StoreKeepsAfter` | stego_core.py:94-95 | once the first `k` slots can hold the stream, the loop has returned and the slots from the `k`-th on keep their pixels |
| `Pvd.FlatBlocks` | stego_core.py:114-123 | the reader's bit groups hold `Capacity` bits between them, the number the writer's layout holds |
| `Pvd.PayloadBits` | stego_core.py:61-62 | the body is a whole number of bytes, at least one, that starts with a zero and has the payload's big-endian value |
| `Pvd.PvdFrame` | stego_core.py:64-66 | the stream is a header holding the body's bit count, which is 32 bits whenever the count fits, followed by the body |
| `Pvd.PvdFrameFramed` | stego_core.py:65-66 | a frame whose count fits in 32 bits is one the reader can parse, and its bits from the 32nd onwards are the body |
| `Pvd.PayloadBytesAsNat` | stego_core.py:61-62 | the body decodes to the payload's value as fixed-width big-endian bytes, one byte wider than its binary form fills |
| `Pvd.PayloadBytes` | stego_core.py:61-62 | what the body decodes to: the payload itself when its first byte is 1..127; a zero byte in front when it is 128 or more; a leading zero byte is dropped and the rest decoded the same way; `[0]` for the empty payload |
| `Pvd.PvdStore` | stego_core.py:54-99 | `pvd_store` keeps the layout of usable slots and leaves in them the frame's chunks, with no check that the frame fits; skipped slots, and the slots after those that hold the frame, keep their pixels |
| `Pvd.ReadHeader` | stego_core.py:124-135 | the header phase gives nothing when the header bits and the groups still to come hold fewer than 32 bits, or fewer than 32 plus the count at their head; any non-empty result has as many bytes as that count calls for |
| `Pvd.BodyEnough` | stego_core.py:136-152 | when at least one group is still to come and, with the bits read so far, they reach the count, the body phase gives `(total + 7) / 8` bytes |
| `Pvd.HeaderEnough` | stego_core.py:124-152 | when the groups before the last complete the header and all of them hold the announced frame, the header phase gives as many bytes as the count calls for |
| `Pvd.ReadBody` | stego_core.py:136-152 | the body phase gives nothing when the bits read so far and the groups still to come cannot reach the count, and otherwise either nothing or `(total + 7) / 8` bytes |
| `Pvd.PvdUnstore` | stego_core.py:101-154 | `pvd_unstore` gives `b''` when the usable slots hold fewer than 32 bits, or fewer than 32 plus the count `L` in their first 32 bits; when the usable slots before the last hold the header and all of them hold `32 + L` bits, it gives `(L + 7) / 8` bytes |
| `Pvd.RefillTail` | stego_core.py:137-139 | the trimmed share of the last slot has as many bits as the body still needs |
| `Pvd.Recovered` | stego_core.py:137-141 | the stream as a reader rebuilds it has the stream's length |
| `Pvd.RefillTailIff` | stego_core.py:137-139 | the trim gives back the last slot's share if and only if that share starts with a one or is all zeros |
| `Pvd.SurvivesIff` | stego_core.py:137-141 | a stream is rebuilt unchanged if and only if its share in the overshooting slot starts with a one or is all zeros |
| `Pvd.BodyPhase` | stego_core.py:136-149 | reading the body gives nothing when the slots run out, and otherwise the bytes of the body as the tail rule rebuilds it |
| `Pvd.HeaderPhase` | stego_core.py:124-135 | reading the 32 header bits and then the body gives nothing when the slots cannot hold the frame, and otherwise the decoded body |
| `Pvd.ReadBackFramed` | stego_core.py:101-154 | reading back slots that hold a framed stream gives nothing when capacity is short, and otherwise the bytes of the rebuilt body |
| `Pvd.PvdReadBack` | stego_core.py:101-154 | `pvd_unstore` after `pvd_store` gives `b''` when the usable slots cannot hold the frame, and otherwise the bytes of the body as the trim rebuilds it |
| `Pvd.RecoveredBodyIff` | stego_core.py:143-147 | on a whole-byte frame, the decoded body comes out right if and only if the whole stream was rebuilt unchanged |
| `Pvd.PvdRoundTripIff` | stego_core.py:101-154 | `pvd_unstore` returns the body `pvd_store` wrote if and only if the slots hold the whole frame and the last slot's leftover bits start with a one or are all zeros |
| `Pvd.RecoveredKeep` | stego_core.py:137-141 | a reader that keeps the leading bits of the last slot rebuilds every stream unchanged |
| `Pvd.ExactFrame` | stego_core.py:61-66 | the corrected frame is parseable, and its body is the payload's bytes at eight bits each |
| `Pvd.PvdEmbed` | stego_core.py:54-99 | the corrected embedder refuses exactly the payloads whose count overflows 32 bits or whose frame exceeds the capacity; otherwise it keeps the slot layout |
| `Pvd.PvdExtract` | stego_core.py:101-154 | the corrected reader makes the same decisions on the number of bytes as `pvd_unstore`: `b''` below 32 or below `32 + L` bits, and `(L + 7) / 8` bytes once the slots before the last hold the header and all of them the frame |
| `Pvd.PvdEmbedRoundTrip` | stego_core.py:101-154 | the corrected reader gives back byte for byte every payload that the corrected embedder accepts |
| `TrimExample.Table128` | stego_core.py:20-23 | the difference 128 falls in the interval 128..191 with 6 bits |
| `TrimExample.SampleSlot` | stego_core.py:74-77 | the pair `(50, 178)` is usable and carries 6 bits |
| `TrimExample.TrimRecovered` | stego_core.py:137-139 | for payload `0x41` over seven such pairs, the trim rebuilds the body as `01000100` |
| `TrimExample.TrimCounterexample` | stego_core.py:137-139 | `pvd_unstore(pvd_store(...))` of the payload `0x41` over seven pairs `(50, 178)` gives `0x44` |
| `Bits.BitsToNat` | stego_core.py:87 | `int(bits, 2)` is below `2^len(bits)` |
| `Bits.ToBinary` | stego_core.py:61 | `bin(n)[2:]` has value `n` and, for `n > 0`, a leading one |
| `Bits.ZFill` | stego_core.py:139 | `zfill` only prepends zeros, up to the width, and keeps the value |
| `Bits.LStrip` | stego_core.py:138 | `lstrip('0')` only removes leading zeros, and leaves nothing or a leading one |
| `Bits.FixedBits` | stego_core.py:123 | `bin(v)[2:].zfill(n)` has value `v` and is exactly `n` bits when `v < 2^n` |
| `Bits.FixedBitsOfValue` | stego_core.py:123 | a bit field rewritten from its own value is the same field |
| `Bits.BitsInjective` | stego_core.py:121-123 | two bit strings of equal length and equal value are equal |
| `Bits.BytesToBits` | stego_core.py:346 | `format(b, '08b')` gives eight bits per byte |
| `Bits.BytesToBitsValue` | stego_core.py:346 | the bit string of a byte string has the byte string's big-endian value |
| `Bits.BitsToBytes` | stego_core.py:51-52 | `bin_to_bytes_readable` gives one byte per started group of eight bits |
| `Bits.BitsToBytesOfBytes` | stego_core.py:51-52 | `bin_to_bytes_readable` inverts the eight-bits-per-byte encoding |
| `Bits.BitsToBytesInjective` | stego_core.py:51-52 | on whole bytes, equal decodings come from equal bit strings |
| `Bits.BitsToBytesAsNat` | stego_core.py:51-52 | `8k` bits decode to their value written as `k` big-endian bytes |
| `Bits.BytesToNat` | stego_core.py:61 | `int.from_bytes(p, 'big')` is below `256^len(p)` |
| `Bits.NatToBytes` | stego_core.py:341 | `struct.pack('>I', v)` gives four bytes whose big-endian value is `v` |
| `Bits.NatToBytesOfBytes` | stego_core.py:442 | packing the unpacked value of fixed-width bytes gives the same bytes |
| `Audio.Clamp16` | stego_core.py:362-365 | the clamp leaves every value of the 16-bit range unchanged |
| `Audio.EmbedSample` | stego_core.py:359-367 | one embed step sets the sample's low bit to the frame bit, leaves the rest of the sample alone, and moves it by at most one |
| `Audio.WriteLsbs` | stego_core.py:351-369 | sample `i` takes bit `i` in its low bit and keeps its other bits; the samples after the last bit are unchanged |
| `Audio.Lsbs` | stego_core.py:421-424 | the extract loop reads the low bit of every sample |
| `Audio.AudioFrame` | stego_core.py:340-342 | the frame is the length as four big-endian bytes, then the first four digest bytes, then the payload |
| `Audio.EmbedAudio` | stego_core.py:331-369 | the embedder refuses exactly the payloads whose frame has more bits than there are samples, or whose length cannot be packed; otherwise it writes each frame bit into one sample's low bit and leaves everything else unchanged |
| `Audio.ExtractBits` | stego_core.py:433-488 | the extractor gives at most 10 MiB; it gives nothing from fewer than 64 bits, from a header announcing more than 10 MiB, or from fewer bits than the announced frame has; any payload it gives has the length the header announces |
| `Audio.ExtractAudio` | stego_core.py:416-488 | the same decisions, on the least significant bits of the samples |
| `Audio.FrameBits` | stego_core.py:346 | cutting the frame's bits at 32 and 64 gives the length field and the payload |
| `Audio.ReadBackLsbs` | stego_core.py:421-424 | the extract loop reads back the bits the embed loop wrote |
| `Audio.LengthFieldReads` | stego_core.py:436-442 | the 32 header bits unpack to the payload length |
| `Audio.ExtractFrameBits` | stego_core.py:446-481 | bits that start with a frame extract to its payload when it is at most 10 MiB, and to nothing otherwise |
| `Audio.ExtractAnyChecksum` | stego_core.py:469-481 | that result does not depend on what the checksum field holds |
| `Audio.AudioRoundTrip` | stego_core.py:331-488 | extracting what the embedder accepted gives the payload back when it is at most 10 MiB, and nothing otherwise |
| `Utf8.Encode` | stego_core.py:169 | a string encodes to one to four bytes per character, and to exactly one per character when all of them are ASCII |
| `Utf8.Decode` | stego_core.py:187 | a successful decode gives a string no longer than the bytes, whose encoding is those bytes; a failure names an offset inside them |
| `Utf8.DecodeEncode` | stego_core.py:169 | decoding the UTF-8 encoding of a string gives the string |
| `Utf8.EncodeDecode` | stego_core.py:187 | what the strict decoder accepts encodes back byte for byte |
| `Utf8.DecodeIff` | stego_core.py:187 | a byte string decodes to `s` if and only if it is the encoding of `s` |
| `Envelope.DeriveSharedKey` | stego_core.py:162-164 | the key is the first 16 bytes of the SHA-256 digest of the two keys concatenated |
| `Envelope.DeriveSeesConcatenation` | stego_core.py:163 | key pairs with the same concatenation derive the same key |
| `Envelope.XorTwice` | stego_core.py:186 | XOR with the same byte undoes itself |
| `Envelope.Ctr` | stego_core.py:186 | counter mode keeps the length, and XORing each output byte with the keystream byte at its offset gives the input byte back |
| `Envelope.CtrTwice` | stego_core.py:186 | counter-mode decryption undoes counter-mode encryption under the same key and nonce |
| `Envelope.AesEncrypt` | stego_core.py:167-171 | encryption fails exactly on a key that is not 16, 24 or 32 bytes; otherwise the envelope is nonce, tag, then a ciphertext as long as the message's UTF-8 encoding |
| `Envelope.AesDecrypt` | stego_core.py:173-190 | decryption refuses fewer than 48 bytes and bad keys, takes the nonce from bytes 0-15 and the ciphertext from byte 32 on, and succeeds exactly when the decrypted bytes are UTF-8, which they then encode |
| `Envelope.EnvelopeParts` | stego_core.py:178-180 | the slices at 16 and 32 give back the nonce, tag and ciphertext that were concatenated |
| `Envelope.EnvelopeRoundTrip` | stego_core.py:167-187 | decrypting an envelope with its own key gives back the message and ciphertext when the message is at least 16 UTF-8 bytes long, and fails as too short otherwise |
| `Envelope.TagIgnored` | stego_core.py:179-187 | any 16 bytes in place of the tag give the same decryption result |
| `Envelope.AesDecryptVerified` | stego_core.py:185-187 | the verifying decryption succeeds only on an authentic tag, and fails with a MAC error on a wrong tag |
| `Envelope.VerifiedAgrees` | stego_core.py:185-187 | on an authentic tag the verifying decryption agrees with `aes_decrypt` |
| `Envelope.VerifiedRoundTrip` | stego_core.py:167-187 | the verifying decryption keeps the round trip of `aes_encrypt` |
| `Envelope.ForgedTag` | stego_core.py:179-187 | with a forged tag, `aes_decrypt` still returns the message and the verifying decryption refuses it |

## Left out

- Reading and writing images and WAV files is left out. That covers `cv2`, base64, `wave`, temporary files and the 16-bit sample-width check. The model starts from the decoded slots and samples.
- Timing, SNR, PSNR, entropy, system metrics and `print` logging are left out. They are reporting only and use floating point.
- SHA-256, MD5 and the AES-EAX keystream and tag are function parameters, not implementations. The derivation, the frame and the envelope layout are modelled around them.
- `ecc_generate_keypair` is left out. It is two draws of `get_random_bytes`. The nonce of `aes_encrypt` is a parameter for the same reason.
- NumPy `uint8` wrap-around at `stego_core.py:75` and `stego_core.py:88` and inside `change_diff` is not modelled. Pixel values are unbounded integers within 0..255.
- `Quantize.ChangeDiff` is proved only for pixel values in 0..255 (the `byte` type), which is all the image can hold.
- `Audio.EmbedAudio`: the post-loop "Not all data could be embedded" error is not a separate branch. The capacity check already rules it out.
- `Audio.ExtractBits`: the "length mismatch" branch and the incomplete length header are not separate branches. Neither can happen once the bit count has been checked.
- `Pvd.PvdReadBack` holds only for bodies of fewer than 2^32 bits. Longer ones get a header wider than 32 bits from `zfill(32)` (stego_core.py:65), while the reader takes 32 bits (stego_core.py:129).
- `Pvd.PvdRoundTripIff` holds only for bodies of fewer than 2^32 bits, for the same reason.
- `Envelope.AesDecrypt`: the "Ciphertext is empty" branch is not modelled. It cannot happen after the 48-byte check.
- The audio checksum is not recomputed on extraction. As written, a mismatch only changes the log message, and `Audio.ExtractAnyChecksum` states that.
- Exception wrapping and the `(output, timing, ...)` tuples of the file-level wrappers are not modelled. The image wrappers are also not modelled.
- Strings are sequences of Unicode scalar values. Lone surrogates, which Python's `str` allows and `encode('utf-8')` rejects, are not represented.

## Findings

| source | as written | input that shows it | evidently intended | confidence | as-written member | corrected member |
|---|---|---|---|---|---|---|
| stego_core.py:61-62 | the body is the payload read as one integer in binary, padded with 1 to 8 zeros | the body of payload `[0x80]` decodes as `[0x00, 0x80]`, and that of `[0x00, 0x41]` as `[0x41]` | eight bits per payload byte, leading zero bytes kept | not executed | `Pvd.PayloadBytes` | `Pvd.ExactFrame` |
| stego_core.py:137-139 | the share of the last slot is stripped of leading zeros and zero-filled to the missing width | payload `0x41` over seven pairs `(50, 178)` reads back as `0x44` | keep the leading bits the body still needs | not executed | `TrimExample.TrimCounterexample` | `Pvd.RecoveredKeep` |
| stego_core.py:94-99 | when the usable slots run out first, `pvd_store` returns the image with the frame cut short | any payload whose frame has more bits than `Pvd.Capacity` gives; the reader then returns `b''` | refuse the payload with a capacity error | not executed | `Pvd.PvdReadBack` | `Pvd.PvdEmbed` |
| stego_core.py:185-187 | `aes_decrypt` decrypts without checking the tag | any envelope from `aes_encrypt` with its tag bytes replaced | `decrypt_and_verify`, which refuses a wrong tag | not executed | `Envelope.ForgedTag` | `Envelope.AesDecryptVerified` |

`Pvd.PvdEmbedRoundTrip` proves the intended round trip for the corrected
codec as a whole: it uses the exact frame, refuses payloads that do not
fit, and keeps the last slot's leading bits. `Envelope.VerifiedRoundTrip`
does the same for the verifying decryption.

=== FILE: audio.dfy ===
/** The sample loops of the audio codec, `embed_data_in_audio_DE` and
    `extract_data_from_audio_DE`: one frame bit in the least significant
    bit of each 16-bit sample, the frame being the payload length as four
    big-endian bytes, four checksum bytes, then the payload. */
module Audio {
  import opened Bits
  import opened Results

  /** A signed 16-bit PCM sample (`np.int16`). */
  type int16 = x: int | -32768 <= x < 32768

  /** An MD5 digest. */
  type Digest16 = s: seq<byte> | |s| == 16 witness seq(16, i => 0)

  /** The largest payload length the extractor accepts (10 MiB). */
  const MaxDataLength: nat := 10 * 1024 * 1024

  /** `x & 1`: Dafny's `%` is Euclidean, so this agrees with Python's
      two's-complement `&` on negative samples too. */
  predicate Lsb(x: int)
  {
    x % 2 == 1
  }

  /** The bounds check of the embed loop: a value outside the 16-bit range
      is clamped to it. */
  function Clamp16(v: int): (c: int16)
    ensures -32768 <= v <= 32767 ==> c == v
  {
    if v > 32767 then 32767 else if v < -32768 then -32768 else v
  }

  /** One step of the embed loop: `(x & ~1) | bit`, then the clamp. Only the
      least significant bit changes, so the clamp never fires. */
  function EmbedSample(x: int16, bit: bool): (y: int16)
    ensures Lsb(y) == bit
    ensures y / 2 == x / 2
    ensures y - x == (if Lsb(x) == bit then 0 else if bit then 1 else -1)
  {
    var cleared := x - x % 2;
    Clamp16(cleared + BitValue(bit))
  }

  /** The embed loop: sample `i` takes bit `i` while bits remain; the loop
      stops at the first sample after the last bit. */
  function WriteLsbs(samples: seq<int16>, bits: seq<bool>): (out: seq<int16>)
    ensures |out| == |samples|
    ensures forall i | 0 <= i < |samples| && i < |bits| :: Lsb(out[i]) == bits[i] && out[i] / 2 == samples[i] / 2
    ensures forall i | |bits| <= i < |samples| :: out[i] == samples[i]
  {
    if samples == [] || bits == [] then samples
    else [EmbedSample(samples[0], bits[0])] + WriteLsbs(samples[1..], bits[1..])
  }

  /** The extract loop: the least significant bit of every sample. */
  function Lsbs(samples: seq<int16>): (bits: seq<bool>)
    ensures |bits| == |samples|
    ensures forall i | 0 <= i < |samples| :: bits[i] == Lsb(samples[i])
  {
    seq(|samples|, i requires 0 <= i < |samples| => Lsb(samples[i]))
  }

  /** The frame the embedder writes: `struct.pack('>I', len(p))`, the first
      four bytes of the MD5 digest of `p`, then `p`. */
  function AudioFrame(p: seq<byte>, digest: Digest16): (frame: seq<byte>)
    requires |p| < Pow2(32)
    ensures |frame| == |p| + 8
    ensures BytesToNat(frame[..4]) == |p| && frame[4..8] == digest[..4] && frame[8..] == p
  {
    var frame := NatToBytes(|p|, 4) + digest[..4] + p;
    assert frame[..4] == NatToBytes(|p|, 4) && frame[4..8] == digest[..4] && frame[8..] == p;
    frame
  }

  /** Why `embed_data_in_audio_DE` refuses a payload. */
  datatype AudioError =
      /** "Message too large for audio": the capacity in bytes (samples / 8)
          and the payload length. */
    | TooLarge(maxBytes: nat, required: nat)
      /** `struct.pack('>I', n)` refuses a length of 2^32 or more. */
    | LengthNotPackable(length: nat)

  /** `embed_data_in_audio_DE` on the decoded samples, with MD5 as a
      parameter. It refuses the payload before touching a sample when the
      frame has more bits than there are samples. */
  function EmbedAudio(samples: seq<int16>, p: seq<byte>, md5: seq<byte> -> Digest16): (r: Result<seq<int16>, AudioError>)
    ensures r.Failure? <==> (|p| + 8) * 8 > |samples| || |p| >= Pow2(32)
    ensures (|p| + 8) * 8 > |samples| ==> r == Failure(TooLarge(|samples| / 8, |p|))
    ensures r.Success? ==>
      var bits := BytesToBits(AudioFrame(p, md5(p)));
      && |r.value| == |samples|
      && (forall i | 0 <= i < |bits| :: Lsb(r.value[i]) == bits[i] && r.value[i] / 2 == samples[i] / 2)
      && (forall i | |bits| <= i < |samples| :: r.value[i] == samples[i])
  {
    if (|p| + 8) * 8 > |samples| then Failure(TooLarge(|samples| / 8, |p|))
    else if |p| >= Pow2(32) then Failure(LengthNotPackable(|p|))
    else Success(WriteLsbs(samples, BytesToBits(AudioFrame(p, md5(p)))))
  }

  /** `extract_data_from_audio_DE` on the decoded samples. It gives nothing
      when there are fewer than 64 samples, when the length field exceeds
      10 MiB, or when there are fewer samples than the announced frame has
      bits; otherwise it gives the payload bytes, whether or not the
      checksum field matches them (a mismatch only changes the log
      message). */
  function ExtractAudio(samples: seq<int16>): (p: seq<byte>)
    ensures |p| <= MaxDataLength
    ensures |samples| < 64 ==> p == []
    ensures p != [] ==> |samples| >= 64 && |p| == BytesToNat(BitsToBytes(Lsbs(samples)[..32]))
    ensures |samples| >= 64 && BytesToNat(BitsToBytes(Lsbs(samples)[..32])) > MaxDataLength ==> p == []
    ensures (|samples| >= 64 && BytesToNat(BitsToBytes(Lsbs(samples)[..32])) <= MaxDataLength
             && |samples| < (8 + BytesToNat(BitsToBytes(Lsbs(samples)[..32]))) * 8) ==> p == []
  {
    ExtractBits(Lsbs(samples))
  }

  /** The decisions of the extractor, on the bits the extract loop read. */
  function ExtractBits(bits: seq<bool>): (p: seq<byte>)
    ensures |p| <= MaxDataLength
    ensures |bits| < 64 ==> p == []
    ensures p != [] ==> |bits| >= 64 && |p| == BytesToNat(BitsToBytes(bits[..32]))
    ensures |bits| >= 64 && BytesToNat(BitsToBytes(bits[..32])) > MaxDataLength ==> p == []
    ensures (|bits| >= 64 && BytesToNat(BitsToBytes(bits[..32])) <= MaxDataLength
             && |bits| < (8 + BytesToNat(BitsToBytes(bits[..32]))) * 8) ==> p == []
  {
    if |bits| < 64 then []
    else
      var dataLength := BytesToNat(BitsToBytes(bits[..32]));
      if dataLength > MaxDataLength then []
      else
        var needed := (4 + 4 + dataLength) * 8;
        if |bits| < needed then []
        else BitsToBytes(bits[64..needed])
  }

  /** The bits of a frame with any four bytes `check` in the checksum
      field, cut where the extractor cuts them. */
  lemma FrameBits(p: seq<byte>, check: seq<byte>)
    requires |p| < Pow2(32) && |check| == 4
    ensures var bits := BytesToBits(NatToBytes(|p|, 4) + check + p);
      && |bits| == (|p| + 8) * 8
      && bits[..32] == BytesToBits(NatToBytes(|p|, 4))
      && bits[64..] == BytesToBits(p)
  {
    hide BytesToBits, NatToBytes;
    var head := NatToBytes(|p|, 4);
    var hb, cb, pb := BytesToBits(head), BytesToBits(check), BytesToBits(p);
    assert BytesToBits(head + check + p) == hb + cb + pb by {
      BytesToBitsAppend(head + check, p);
      BytesToBitsAppend(head, check);
    }
    assert (hb + cb + pb)[..32] == hb && (hb + cb + pb)[64..] == pb;
  }

  /** What the extract loop reads back after the embed loop. */
  lemma ReadBackLsbs(samples: seq<int16>, bits: seq<bool>)
    requires |bits| <= |samples|
    ensures Lsbs(WriteLsbs(samples, bits))[..|bits|] == bits
  {
  }

  /** Bits read past the end of the frame do not change its fields. */
  lemma FrameCuts(read: seq<bool>, bits: seq<bool>)
    requires 64 <= |bits| <= |read| && read[..|bits|] == bits
    ensures read[..32] == bits[..32] && read[64..|bits|] == bits[64..]
  {
    assert read[..32] == read[..|bits|][..32];
    assert read[64..|bits|] == read[..|bits|][64..];
  }

  /** The length field reads back as the payload length. */
  lemma LengthFieldReads(read: seq<bool>, p: seq<byte>)
    requires |p| < Pow2(32) && |read| >= 32 && read[..32] == BytesToBits(NatToBytes(|p|, 4))
    ensures BytesToNat(BitsToBytes(read[..32])) == |p|
  {
    BitsToBytesOfBytes(NatToBytes(|p|, 4));
  }

  /** The extractor's decisions on bits that start with a frame. */
  lemma ExtractFrameBits(read: seq<bool>, p: seq<byte>, check: seq<byte>)
    requires |p| < Pow2(32) && |check| == 4
    requires var bits := BytesToBits(NatToBytes(|p|, 4) + check + p);
      |bits| <= |read| && read[..|bits|] == bits
    ensures ExtractBits(read) == if |p| <= MaxDataLength then p else []
  {
    hide BytesToBits, BitsToBytes, NatToBytes, BytesToNat;
    var bits := BytesToBits(NatToBytes(|p|, 4) + check + p);
    FrameBits(p, check);
    FrameCuts(read, bits);
    LengthFieldReads(read, p);
    BitsToBytesOfBytes(p);
  }

  /** Extracting from samples into which a frame was written, whatever its
      checksum field holds (the MD5 prefix or anything else): the payload
      when it is at most 10 MiB long, and nothing otherwise. */
  lemma ExtractAnyChecksum(samples: seq<int16>, p: seq<byte>, check: seq<byte>)
    requires |p| < Pow2(32) && |check| == 4 && (|p| + 8) * 8 <= |samples|
    ensures ExtractAudio(WriteLsbs(samples, BytesToBits(NatToBytes(|p|, 4) + check + p)))
      == if |p| <= MaxDataLength then p else []
  {
    var bits := BytesToBits(NatToBytes(|p|, 4) + check + p);
    ReadBackLsbs(samples, bits);
    ExtractFrameBits(Lsbs(WriteLsbs(samples, bits)), p, check);
  }

  /** `extract_data_from_audio_DE` inverts `embed_data_in_audio_DE` for
      every payload the embedder accepts and the extractor's 10 MiB limit
      admits; longer accepted payloads extract to nothing. */
  lemma AudioRoundTrip(samples: seq<int16>, p: seq<byte>, md5: seq<byte> -> Digest16)
    requires EmbedAudio(samples, p, md5).Success?
    ensures ExtractAudio(EmbedAudio(samples, p, md5).value) == if |p| <= MaxDataLength then p else []
  {
    ExtractAnyChecksum(samples, p, md5(p)[..4]);
  }
}

=== FILE: bits.dfy ===
/** Bit strings and byte strings as the steganography code builds them with
    Python's `bin`, `str.zfill`, `str.lstrip('0')`, `int(s, 2)`,
    `int.from_bytes(p, 'big')`, `struct.pack('>I', n)` and `format(b, '08b')`.
    A bit string is a `seq<bool>`, most significant bit first. */
module Bits {

  type byte = x: int | 0 <= x < 256

  /** `2 ** n` */
  function Pow2(n: nat): (r: nat)
    ensures r >= 1
  {
    if n == 0 then 1 else 2 * Pow2(n - 1)
  }

  lemma {:induction false} Pow2Add(a: nat, b: nat)
    ensures Pow2(a + b) == Pow2(a) * Pow2(b)
  {
    if b > 0 {
      Pow2Add(a, b - 1);
      assert Pow2(a + b) == 2 * Pow2(a + b - 1);
    }
  }

  lemma {:induction false} Pow2Monotone(a: nat, b: nat)
    requires a <= b
    ensures Pow2(a) <= Pow2(b)
  {
    if a < b {
      Pow2Monotone(a, b - 1);
    }
  }

  /** Powers of two grow strictly with the exponent. */
  lemma {:induction false} Pow2Below(a: nat, b: nat)
    requires Pow2(a) < Pow2(b)
    ensures a < b
  {
    if a > 0 && b > 0 {
      Pow2Below(a - 1, b - 1);
    }
  }

  function BitValue(b: bool): nat
  {
    if b then 1 else 0
  }

  function Zeros(n: nat): (r: seq<bool>)
    ensures |r| == n
    ensures forall i | 0 <= i < n :: !r[i]
  {
    seq(n, i => false)
  }

  lemma ZerosCons(m: nat)
    ensures Zeros(m + 1) == [false] + Zeros(m)
  {
  }

  predicate AllZero(s: seq<bool>)
  {
    forall i | 0 <= i < |s| :: !s[i]
  }

  /** `int(s, 2)`: the value of a big-endian bit string. */
  function BitsToNat(s: seq<bool>): (v: nat)
    ensures v < Pow2(|s|)
  {
    if s == [] then 0 else 2 * BitsToNat(s[..|s| - 1]) + BitValue(s[|s| - 1])
  }

  /** The value of two bit strings one after the other. */
  lemma {:induction false} BitsToNatAppend(a: seq<bool>, b: seq<bool>)
    ensures BitsToNat(a + b) == BitsToNat(a) * Pow2(|b|) + BitsToNat(b)
  {
    if b != [] {
      var b' := b[..|b| - 1];
      var x: int, p: int, y: int, c: int := BitsToNat(a), Pow2(|b'|), BitsToNat(b'), BitValue(b[|b| - 1]);
      assert BitsToNat(a + b) == 2 * BitsToNat(a + b') + c by {
        assert (a + b)[..|a + b| - 1] == a + b';
      }
      assert BitsToNat(a + b') == x * p + y by {
        BitsToNatAppend(a, b');
      }
      assert BitsToNat(b) == 2 * y + c && Pow2(|b|) == 2 * p;
      ShiftIn(x, p, y, c, 2);
    } else {
      assert a + b == a;
    }
  }

  /** Shifting a digit into the low end of `x * p + y` in base `r`. */
  lemma ShiftIn(x: int, p: int, y: int, c: int, r: int)
    ensures (x * p + y) * r + c == x * (p * r) + (y * r + c)
  {
    assert (x * p) * r == x * (p * r);
  }

  /** Leading zeros do not change a value. */
  lemma {:induction false} LeadingZeros(k: nat, s: seq<bool>)
    ensures BitsToNat(Zeros(k) + s) == BitsToNat(s)
  {
    BitsToNatAppend(Zeros(k), s);
    AllZeroValue(Zeros(k));
  }

  /** A string of zeros has the value zero. */
  lemma {:induction false} AllZeroValue(s: seq<bool>)
    requires AllZero(s)
    ensures BitsToNat(s) == 0
  {
    if s != [] {
      AllZeroValue(s[..|s| - 1]);
    }
  }

  /** Two bit strings of one length with one value are equal: the
      big-endian reading is injective at a fixed width. */
  lemma {:induction false} BitsInjective(a: seq<bool>, b: seq<bool>)
    requires |a| == |b| && BitsToNat(a) == BitsToNat(b)
    ensures a == b
  {
    if a != [] {
      var n := |a| - 1;
      assert a[n] == b[n] by {
        assert BitsToNat(a) % 2 == BitValue(a[n]);
        assert BitsToNat(b) % 2 == BitValue(b[n]);
      }
      BitsInjective(a[..n], b[..n]);
      assert a == a[..n] + [a[n]] && b == b[..n] + [b[n]];
    }
  }

  /** `bin(n)[2:]`: the shortest binary form of `n` ("0" for zero). */
  function ToBinary(n: nat): (s: seq<bool>)
    ensures |s| >= 1 && BitsToNat(s) == n
    ensures n == 0 ==> s == [false]
    ensures n > 0 ==> s[0] && Pow2(|s| - 1) <= n
  {
    if n < 2 then [n == 1]
    else
      var s := ToBinary(n / 2) + [n % 2 == 1];
      assert s[..|s| - 1] == ToBinary(n / 2);
      s
  }

  /** `s.zfill(w)`: left-pad with zeros up to width `w`; a string already
      at least `w` long (or a negative width) is returned unchanged. */
  function ZFill(s: seq<bool>, w: int): (r: seq<bool>)
    ensures |r| == if |s| < w then w else |s|
    ensures |r| >= |s| && r == Zeros(|r| - |s|) + s
    ensures BitsToNat(r) == BitsToNat(s)
  {
    if |s| < w then
      LeadingZeros(w - |s|, s);
      Zeros(w - |s|) + s
    else
      assert Zeros(0) + s == s;
      s
  }

  /** `s.lstrip('0')`: drop the leading zeros. */
  function LStrip(s: seq<bool>): (r: seq<bool>)
    ensures |r| <= |s| && s == Zeros(|s| - |r|) + r
    ensures r == [] || r[0]
  {
    if s != [] && !s[0] then
      var r := LStrip(s[1..]);
      var m := |s| - 1 - |r|;
      assert s == [false] + (Zeros(m) + r) by {
        assert s == [false] + s[1..];
      }
      assert [false] + (Zeros(m) + r) == Zeros(m + 1) + r by {
        ZerosCons(m);
      }
      r
    else
      assert s == Zeros(0) + s;
      s
  }

  /** A number below `2^w` has at most `w` binary digits. */
  lemma {:induction false} ToBinaryShort(n: nat, w: nat)
    requires w >= 1 && n < Pow2(w)
    ensures |ToBinary(n)| <= w
  {
    var t := ToBinary(n);
    if n > 0 && |t| > w {
      Pow2Monotone(w, |t| - 1);
    }
  }

  /** `bin(n)[2:].zfill(w)`: exactly `w` bits when `n` fits in `w` bits. */
  function FixedBits(n: nat, w: nat): (s: seq<bool>)
    ensures BitsToNat(s) == n
    ensures w >= 1 && n < Pow2(w) ==> |s| == w
  {
    if w >= 1 && n < Pow2(w) then ToBinaryShort(n, w); ZFill(ToBinary(n), w)
    else ZFill(ToBinary(n), w)
  }

  /** Reading a field back: the zero-filled binary of a field's value is the field. */
  lemma FixedBitsOfValue(s: seq<bool>)
    requires |s| >= 1
    ensures FixedBits(BitsToNat(s), |s|) == s
  {
    BitsInjective(FixedBits(BitsToNat(s), |s|), s);
  }

  /** `format(b, '08b')` */
  function ByteBits(b: byte): (s: seq<bool>)
    ensures |s| == 8 && BitsToNat(s) == b
  {
    assert Pow2(8) == 256;
    FixedBits(b, 8)
  }

  /** `''.join(format(b, '08b') for b in p)`: eight bits per byte, MSB first. */
  function BytesToBits(p: seq<byte>): (s: seq<bool>)
    ensures |s| == 8 * |p| && |s| % 8 == 0
  {
    if p == [] then []
    else
      var s := ByteBits(p[0]) + BytesToBits(p[1..]);
      WholeBytes(|p|);
      s
  }

  lemma WholeBytes(k: nat)
    ensures (8 * k) % 8 == 0
  {
  }

  /** Bytes one after the other give their bits one after the other. */
  lemma {:induction false} BytesToBitsAppend(a: seq<byte>, b: seq<byte>)
    ensures BytesToBits(a + b) == BytesToBits(a) + BytesToBits(b)
  {
    if a != [] {
      assert (a + b)[1..] == a[1..] + b;
      BytesToBitsAppend(a[1..], b);
    } else {
      assert a + b == b;
    }
  }

  /** `bin_to_bytes_readable`: consecutive 8-bit chunks, the last one
      possibly shorter, each read as a number. */
  function BitsToBytes(s: seq<bool>): (p: seq<byte>)
    ensures |p| == (|s| + 7) / 8
  {
    if s == [] then []
    else if |s| <= 8 then
      Pow2Monotone(|s|, 8);
      [BitsToNat(s)]
    else
      assert Pow2(8) == 256;
      [BitsToNat(s[..8])] + BitsToBytes(s[8..])
  }

  /** Decoding splits at every whole byte. */
  lemma {:induction false} BitsToBytesAppend(a: seq<bool>, b: seq<bool>)
    requires |a| % 8 == 0
    ensures BitsToBytes(a + b) == BitsToBytes(a) + BitsToBytes(b)
    decreases |a|
  {
    if a == [] {
      assert a + b == b;
    } else if b == [] {
      assert a + b == a;
    } else {
      assert (a + b)[..8] == a[..8];
      assert (a + b)[8..] == a[8..] + b;
      BitsToBytesAppend(a[8..], b);
      if |a| == 8 {
        assert a[8..] == [];
        assert a[..8] == a;
      }
    }
  }

  /** Decoding what was encoded gives the bytes back. */
  lemma {:induction false} BitsToBytesOfBytes(p: seq<byte>)
    ensures BitsToBytes(BytesToBits(p)) == p
  {
    if p != [] {
      BitsToBytesOfBytes(p[1..]);
      BitsToBytesOfByte(p);
    }
  }

  /** One step of `BitsToBytesOfBytes`: its first byte. */
  lemma BitsToBytesOfByte(p: seq<byte>)
    requires p != [] && BitsToBytes(BytesToBits(p[1..])) == p[1..]
    ensures BitsToBytes(BytesToBits(p)) == p
  {
    var head, tail := ByteBits(p[0]), BytesToBits(p[1..]);
    assert BytesToBits(p) == head + tail;
    BitsToBytesCons(head, tail);
    assert p == [p[0]] + p[1..];
  }

  /** Eight leading bits become one leading byte. */
  lemma BitsToBytesCons(head: seq<bool>, tail: seq<bool>)
    requires |head| == 8
    ensures BitsToBytes(head + tail) == [BitsToNat(head)] + BitsToBytes(tail)
  {
    var s := head + tail;
    if tail == [] {
      assert s == head;
    } else {
      assert s[..8] == head && s[8..] == tail;
    }
  }

  /** `int.from_bytes(p, 'big')` */
  function BytesToNat(p: seq<byte>): (v: nat)
    ensures v < Pow2(8 * |p|)
  {
    if p == [] then 0
    else
      var v := BytesToNat(p[..|p| - 1]);
      Pow2Add(8 * (|p| - 1), 8);
      assert Pow2(8) == 256;
      v * 256 + p[|p| - 1]
  }

  /** The value of two byte strings one after the other. */
  lemma {:induction false} BytesToNatAppend(a: seq<byte>, b: seq<byte>)
    ensures BytesToNat(a + b) == BytesToNat(a) * Pow2(8 * |b|) + BytesToNat(b)
  {
    if b == [] {
      assert a + b == a;
    } else {
      var b' := b[..|b| - 1];
      var x: int, p: int, y: int, c: int := BytesToNat(a), Pow2(8 * |b'|), BytesToNat(b'), b[|b| - 1];
      assert BytesToNat(a + b) == BytesToNat(a + b') * 256 + c by {
        assert (a + b)[..|a + b| - 1] == a + b';
      }
      assert BytesToNat(a + b') == x * p + y by {
        BytesToNatAppend(a, b');
      }
      assert Pow2(8 * |b|) == p * 256 by {
        Pow2Add(8 * |b'|, 8);
        assert Pow2(8) == 256;
      }
      assert BytesToNat(b) == y * 256 + c;
      ShiftIn(x, p, y, c, 256);
    }
  }

  /** The bit string of a byte string has the byte string's value. */
  lemma {:induction false} BytesToBitsValue(p: seq<byte>)
    ensures BitsToNat(BytesToBits(p)) == BytesToNat(p)
  {
    if p != [] {
      BytesToBitsValue(p[1..]);
      BitsToNatAppend(ByteBits(p[0]), BytesToBits(p[1..]));
      BytesToNatAppend([p[0]], p[1..]);
      assert [p[0]] + p[1..] == p;
      assert [p[0]][..0] == [];
      assert BytesToNat([p[0]]) == p[0];
      assert BitsToNat(BytesToBits(p)) == p[0] * Pow2(8 * |p[1..]|) + BytesToNat(p[1..]);
    }
  }

  /** `v` written as `k` big-endian bytes (`struct.pack('>I', v)` for `k == 4`). */
  function NatToBytes(v: nat, k: nat): (p: seq<byte>)
    requires v < Pow2(8 * k)
    ensures |p| == k && BytesToNat(p) == v
  {
    if k == 0 then []
    else
      Pow2Add(8 * (k - 1), 8);
      assert Pow2(8) == 256;
      var p := NatToBytes(v / 256, k - 1) + [v % 256];
      assert p[..k - 1] == NatToBytes(v / 256, k - 1);
      p
  }

  /** Fixed-width big-endian bytes are determined by their value. */
  lemma {:induction false} NatToBytesOfBytes(p: seq<byte>)
    ensures NatToBytes(BytesToNat(p), |p|) == p
  {
    if p != [] {
      var n := |p| - 1;
      var v, u, c := BytesToNat(p), BytesToNat(p[..n]), p[n];
      assert v == u * 256 + c;
      assert v / 256 == u && v % 256 == c;
      assert NatToBytes(v, |p|) == NatToBytes(u, n) + [c];
      NatToBytesOfBytes(p[..n]);
      assert p == p[..n] + [c];
    }
  }

  /** One more leading byte is a zero byte. */
  lemma NatToBytesWiden(v: nat, k: nat)
    requires v < Pow2(8 * k)
    ensures Pow2(8 * k) <= Pow2(8 * (k + 1))
    ensures NatToBytes(v, k + 1) == [0] + NatToBytes(v, k)
  {
    Pow2Monotone(8 * k, 8 * (k + 1));
    var p := NatToBytes(v, k);
    assert BytesToNat([0] + p) == v by {
      BytesToNatAppend([0], p);
      assert BytesToNat([0]) == 0 by {
        assert [0][..0] == [];
      }
    }
    NatToBytesOfBytes([0] + p);
  }

  /** A whole number of bytes' worth of bits decodes to the fixed-width
      big-endian bytes of its value. */
  lemma {:induction false} BitsToBytesAsNat(s: seq<bool>, k: nat)
    requires |s| == 8 * k
    ensures BitsToNat(s) < Pow2(8 * k)
    ensures BitsToBytes(s) == NatToBytes(BitsToNat(s), k)
  {
    if k > 0 {
      var front, last := s[..|s| - 8], s[|s| - 8..];
      assert s == front + last;
      BitsToBytesAsNat(front, k - 1);
      BitsToBytesAsNatStep(front, last, k);
    }
  }

  /** One step of `BitsToBytesAsNat`: its last byte. */
  lemma BitsToBytesAsNatStep(front: seq<bool>, last: seq<bool>, k: nat)
    requires k > 0 && |front| == 8 * (k - 1) && |last| == 8
    requires BitsToBytes(front) == NatToBytes(BitsToNat(front), k - 1)
    ensures BitsToBytes(front + last) == NatToBytes(BitsToNat(front + last), k)
  {
    var v, hi, lo := BitsToNat(front + last), BitsToNat(front), BitsToNat(last);
    assert v == hi * 256 + lo && lo < 256 by {
      hide BitsToBytes, NatToBytes;
      BitsToNatAppend(front, last);
      assert Pow2(8) == 256;
    }
    assert BitsToBytes(front + last) == BitsToBytes(front) + [lo] by {
      hide NatToBytes;
      WholeBytes(k - 1);
      BitsToBytesAppend(front, last);
      assert last[..8] == last;
    }
    assert v / 256 == hi && v % 256 == lo;
    assert NatToBytes(v, k) == NatToBytes(hi, k - 1) + [lo] by {
      hide BitsToBytes, BitsToNat;
    }
  }

  /** Whole bytes' worth of bits are determined by the bytes they decode to. */
  lemma BitsToBytesInjective(s: seq<bool>, t: seq<bool>)
    requires |s| == |t| && |s| % 8 == 0 && BitsToBytes(s) == BitsToBytes(t)
    ensures s == t
  {
    var k := |s| / 8;
    BitsToBytesAsNat(s, k);
    BitsToBytesAsNat(t, k);
    assert BitsToNat(s) == BytesToNat(BitsToBytes(s));
    BitsInjective(s, t);
  }
}

=== FILE: envelope.dfy ===
/** The encryption envelope, `aes_encrypt` and `aes_decrypt`, and the key
    derivation `ecc_derive_shared_key`. AES-EAX is its counter-mode
    keystream XORed onto the data plus a tag over the ciphertext; both are
    uninterpreted functions of the key and the nonce, as is SHA-256. */
module Envelope {
  import opened Bits
  import opened Results
  import opened Utf8

  /** A 16-byte nonce, tag or AES-128 key. */
  type Block16 = s: seq<byte> | |s| == 16 witness seq(16, i => 0)

  /** A SHA-256 digest. */
  type Digest32 = s: seq<byte> | |s| == 32 witness seq(32, i => 0)

  /** The AES-EAX primitives under a key and a nonce: byte `i` of the
      counter-mode keystream, and the authentication tag of a ciphertext. */
  datatype Eax = Eax(
    keystream: (seq<byte>, Block16, nat) -> byte,
    mac: (seq<byte>, Block16, seq<byte>) -> Block16)

  /** `ecc_derive_shared_key(private, public)`: the first 16 bytes of the
      SHA-256 digest of the two byte strings concatenated. */
  function DeriveSharedKey(sha256: seq<byte> -> Digest32, private: seq<byte>, public: seq<byte>): (key: Block16)
    ensures key + sha256(private + public)[16..] == sha256(private + public)
  {
    var digest := sha256(private + public);
    assert digest[..16] + digest[16..] == digest;
    digest[..16]
  }

  /** The derivation sees only the concatenation: moving bytes from the end
      of one input to the start of the other gives the same key. */
  lemma DeriveSeesConcatenation(sha256: seq<byte> -> Digest32, a: seq<byte>, b: seq<byte>, a': seq<byte>, b': seq<byte>)
    requires a + b == a' + b'
    ensures DeriveSharedKey(sha256, a, b) == DeriveSharedKey(sha256, a', b')
  {
    var key, key' := DeriveSharedKey(sha256, a, b), DeriveSharedKey(sha256, a', b');
    var digest := sha256(a + b);
    assert key == (key + digest[16..])[..16];
    assert key' == (key' + digest[16..])[..16];
  }

  /** The key lengths AES accepts. */
  predicate ValidKey(key: seq<byte>)
  {
    |key| == 16 || |key| == 24 || |key| == 32
  }

  /** The low `k` bits of `a ^ b`. */
  function XorBits(a: nat, b: nat, k: nat): (r: nat)
    ensures r < Pow2(k)
  {
    if k == 0 then 0 else 2 * XorBits(a / 2, b / 2, k - 1) + (if a % 2 == b % 2 then 0 else 1)
  }

  /** `a ^ b` on bytes. */
  function Xor(a: byte, b: byte): byte
  {
    assert Pow2(8) == 256;
    XorBits(a, b, 8)
  }

  /** XOR with `b` twice gives the low `k` bits back. */
  lemma {:induction false} XorBitsTwice(a: nat, b: nat, k: nat)
    requires a < Pow2(k)
    ensures XorBits(XorBits(a, b, k), b, k) == a
  {
    if k > 0 {
      var r := XorBits(a, b, k);
      XorBitsTwice(a / 2, b / 2, k - 1);
      assert r / 2 == XorBits(a / 2, b / 2, k - 1);
    }
  }

  /** `a ^ b ^ b == a` */
  lemma XorTwice(a: byte, b: byte)
    ensures Xor(Xor(a, b), b) == a
  {
    assert Pow2(8) == 256;
    XorBitsTwice(a, b, 8);
  }

  /** Counter mode: each byte XORed with the keystream byte at its offset,
      so that XORing an output byte with the same keystream byte gives the
      input byte back. */
  function Ctr(eax: Eax, key: seq<byte>, nonce: Block16, data: seq<byte>): (out: seq<byte>)
    ensures |out| == |data|
    ensures forall i | 0 <= i < |data| :: Xor(out[i], eax.keystream(key, nonce, i)) == data[i]
  {
    var out := seq<byte>(|data|, i requires 0 <= i < |data| => Xor(data[i], eax.keystream(key, nonce, i)));
    XorEach(data, out, j => eax.keystream(key, nonce, j));
    out
  }

  /** Bytes XORed with a stream come back under the same stream. */
  lemma XorEach(data: seq<byte>, out: seq<byte>, ks: nat -> byte)
    requires |out| == |data| && forall i | 0 <= i < |data| :: out[i] == Xor(data[i], ks(i))
    ensures forall i | 0 <= i < |data| :: Xor(out[i], ks(i)) == data[i]
  {
    forall i | 0 <= i < |data|
      ensures Xor(out[i], ks(i)) == data[i]
    {
      XorTwice(data[i], ks(i));
    }
  }

  /** Counter mode undoes itself. */
  lemma CtrTwice(eax: Eax, key: seq<byte>, nonce: Block16, data: seq<byte>)
    ensures Ctr(eax, key, nonce, Ctr(eax, key, nonce, data)) == data
  {
    forall i | 0 <= i < |data|
      ensures Ctr(eax, key, nonce, Ctr(eax, key, nonce, data))[i] == data[i]
    {
      XorTwice(data[i], eax.keystream(key, nonce, i));
    }
  }

  /** What `aes_encrypt` returns: the envelope, the ciphertext and the tag. */
  datatype Encrypted = Encrypted(data: seq<byte>, ciphertext: seq<byte>, tag: Block16)

  /** `AES.new` refuses a key that is not 16, 24 or 32 bytes long. */
  datatype KeyError = IncorrectKeyLength(length: nat)

  /** `aes_encrypt(message, key)` with the random nonce as a parameter: the
      envelope is the nonce, the tag, then the ciphertext, which is as long
      as the message's UTF-8 encoding. */
  function AesEncrypt(eax: Eax, message: string, key: seq<byte>, nonce: Block16): (r: Result<Encrypted, KeyError>)
    ensures r.Failure? <==> !ValidKey(key)
    ensures r.Success? ==>
      var e := r.value;
      && |e.ciphertext| == |Encode(message)| && |e.data| == 32 + |Encode(message)|
      && e.data[..16] == nonce && e.data[16..32] == e.tag && e.data[32..] == e.ciphertext
  {
    if !ValidKey(key) then Failure(IncorrectKeyLength(|key|))
    else
      var ciphertext := Ctr(eax, key, nonce, Encode(message));
      var tag := eax.mac(key, nonce, ciphertext);
      var data := nonce + tag + ciphertext;
      assert data[..16] == nonce && data[16..32] == tag && data[32..] == ciphertext;
      Success(Encrypted(data, ciphertext, tag))
  }

  /** What made `aes_decrypt` fail; it re-raises every cause as one
      `ValueError("Decryption failed: ...")`. */
  datatype Cause =
    | TooShort(length: nat)
    | BadKey(length: nat)
    | NotUtf8(offset: nat)
    | MacCheckFailed

  datatype ValueError = ValueError(cause: Cause)

  /** What `aes_decrypt` returns: the message and the ciphertext. */
  datatype Decrypted = Decrypted(message: string, ciphertext: seq<byte>)

  /** `aes_decrypt(data, key)`: it refuses fewer than 48 bytes, takes the
      nonce from bytes 0-15 and the ciphertext from byte 32 on, and never
      looks at the tag in bytes 16-31. What it returns is a message whose
      UTF-8 encoding is the keystream XOR of the ciphertext. */
  function AesDecrypt(eax: Eax, data: seq<byte>, key: seq<byte>): (r: Result<Decrypted, ValueError>)
    ensures |data| < 48 ==> r == Failure(ValueError(TooShort(|data|)))
    ensures |data| >= 48 && !ValidKey(key) ==> r == Failure(ValueError(BadKey(|key|)))
    ensures |data| >= 48 && ValidKey(key) ==>
      (r.Success? <==> Decode(Ctr(eax, key, data[..16], data[32..])).Success?)
    ensures r.Success? ==>
      && r.value.ciphertext == data[32..]
      && Encode(r.value.message) == Ctr(eax, key, data[..16], data[32..])
  {
    if |data| < 48 then Failure(ValueError(TooShort(|data|)))
    else if !ValidKey(key) then Failure(ValueError(BadKey(|key|)))
    else
      var nonce, ciphertext := data[..16], data[32..];
      match Decode(Ctr(eax, key, nonce, ciphertext))
      case Success(message) =>
        EncodeDecode(Ctr(eax, key, nonce, ciphertext), 0);
        Success(Decrypted(message, ciphertext))
      case Failure(e) => Failure(ValueError(NotUtf8(e.offset)))
  }

  /** The three parts of an envelope, cut where `aes_decrypt` cuts them. */
  lemma EnvelopeParts(nonce: Block16, tag: Block16, ciphertext: seq<byte>)
    ensures var data := nonce + tag + ciphertext;
      data[..16] == nonce && data[16..32] == tag && data[32..] == ciphertext
  {
    var data := nonce + tag + ciphertext;
    assert data[..16] == nonce && data[16..32] == tag && data[32..] == ciphertext;
  }

  /** Decrypting with the encryption key what `aes_encrypt` produced gives
      the message and ciphertext back, unless the message encodes to fewer
      than 16 bytes, when the length check refuses the envelope. */
  lemma EnvelopeRoundTrip(eax: Eax, message: string, key: seq<byte>, nonce: Block16)
    requires ValidKey(key)
    ensures var e := AesEncrypt(eax, message, key, nonce).value;
      AesDecrypt(eax, e.data, key)
        == if |Encode(message)| >= 16 then Success(Decrypted(message, e.ciphertext))
           else Failure(ValueError(TooShort(32 + |Encode(message)|)))
  {
    var e := AesEncrypt(eax, message, key, nonce).value;
    if |Encode(message)| >= 16 {
      CtrTwice(eax, key, nonce, Encode(message));
      DecodeEncode(message, 0);
    }
  }

  /** The tag bytes of an envelope make no difference to `aes_decrypt`:
      any 16 bytes in their place decrypt to the same result. */
  lemma TagIgnored(eax: Eax, nonce: Block16, tag: Block16, forged: Block16, ciphertext: seq<byte>, key: seq<byte>)
    ensures AesDecrypt(eax, nonce + tag + ciphertext, key) == AesDecrypt(eax, nonce + forged + ciphertext, key)
  {
    EnvelopeParts(nonce, tag, ciphertext);
    EnvelopeParts(nonce, forged, ciphertext);
  }

  /** `aes_decrypt` as EAX is meant to be used (`decrypt_and_verify`): the
      tag in bytes 16-31 must be the tag of the nonce and the ciphertext
      under the key, or decryption fails with a MAC check failure before
      anything is decoded. */
  function AesDecryptVerified(eax: Eax, data: seq<byte>, key: seq<byte>): (r: Result<Decrypted, ValueError>)
    ensures r.Success? ==> |data| >= 48 && data[16..32] == eax.mac(key, data[..16], data[32..])
    ensures |data| >= 48 && ValidKey(key) && data[16..32] != eax.mac(key, data[..16], data[32..]) ==>
      r == Failure(ValueError(MacCheckFailed))
  {
    if |data| < 48 then Failure(ValueError(TooShort(|data|)))
    else if !ValidKey(key) then Failure(ValueError(BadKey(|key|)))
    else if data[16..32] != eax.mac(key, data[..16], data[32..]) then Failure(ValueError(MacCheckFailed))
    else AesDecrypt(eax, data, key)
  }

  /** On an envelope whose tag is authentic the verifying decryption agrees
      with `aes_decrypt`; otherwise they differ only where `aes_decrypt`
      would have returned a message. */
  lemma VerifiedAgrees(eax: Eax, data: seq<byte>, key: seq<byte>)
    ensures |data| < 48 || data[16..32] == eax.mac(key, data[..16], data[32..]) ==>
      AesDecryptVerified(eax, data, key) == AesDecrypt(eax, data, key)
    ensures AesDecryptVerified(eax, data, key).Success? ==>
      AesDecryptVerified(eax, data, key) == AesDecrypt(eax, data, key)
  {
  }

  /** The verifying decryption keeps the round trip of `aes_encrypt`. */
  lemma VerifiedRoundTrip(eax: Eax, message: string, key: seq<byte>, nonce: Block16)
    requires ValidKey(key)
    ensures var e := AesEncrypt(eax, message, key, nonce).value;
      AesDecryptVerified(eax, e.data, key)
        == if |Encode(message)| >= 16 then Success(Decrypted(message, e.ciphertext))
           else Failure(ValueError(TooShort(32 + |Encode(message)|)))
  {
    var e := AesEncrypt(eax, message, key, nonce).value;
    EnvelopeRoundTrip(eax, message, key, nonce);
    EnvelopeParts(nonce, e.tag, e.ciphertext);
  }

  /** An envelope from `aes_encrypt` whose tag was replaced by any other 16
      bytes: `aes_decrypt` still returns the message, the verifying
      decryption refuses it. */
  lemma ForgedTag(eax: Eax, message: string, key: seq<byte>, nonce: Block16, forged: Block16)
    requires ValidKey(key) && |Encode(message)| >= 16
    requires forged != AesEncrypt(eax, message, key, nonce).value.tag
    ensures var e := AesEncrypt(eax, message, key, nonce).value;
      && AesDecrypt(eax, nonce + forged + e.ciphertext, key) == Success(Decrypted(message, e.ciphertext))
      && AesDecryptVerified(eax, nonce + forged + e.ciphertext, key) == Failure(ValueError(MacCheckFailed))
  {
    var e := AesEncrypt(eax, message, key, nonce).value;
    EnvelopeRoundTrip(eax, message, key, nonce);
    TagIgnored(eax, nonce, e.tag, forged, e.ciphertext, key);
    EnvelopeParts(nonce, forged, e.ciphertext);
  }
}

=== FILE: pvd.dfy ===
/** The adaptive PVD image codec, `pvd_store` and `pvd_unstore`.

    The image is seen as the sequence of its slots in traversal order: rows
    top to bottom, within a row the column pairs `(0, 1), (2, 3), ...` up to
    the width rounded down to even, within a pair the channels 0, 1, 2.
    Both directions skip the same slots (those whose pair cannot be widened to
    the top of its interval) and give every other slot as many bits as its
    interval is wide. */
module Pvd {
  import opened Bits
  import opened Quantize
  import opened Results

  /** One channel of two horizontally adjacent pixels: `img[i, j, k]` and
      `img[i, j + 1, k]`. */
  datatype Slot = Slot(left: byte, right: byte)

  /** `max - min` of the pair. */
  function Dif(s: Slot): nat
  {
    Abs(s.right - s.left)
  }

  /** The table entry of the pair's difference. */
  function RangeOf(s: Slot): Range
  {
    Embending(Dif(s))
  }

  /** The number of bits the slot carries when usable. */
  function Width(s: Slot): nat
  {
    RangeOf(s).bits
  }

  /** The probe both directions make: can the pair be widened to the top of
      its interval? A slot that cannot is skipped and carries nothing. It
      can exactly when the room below the smaller value and the room above
      the larger one each hold half of the widening and together hold all
      of it. */
  predicate Usable(s: Slot)
    ensures Usable(s) <==> Room(LowRoom(s.left, s.right), HighRoom(s.left, s.right), RangeOf(s).upper - Dif(s))
  {
    var lo, hi := Min(s.left, s.right), Max(s.left, s.right);
    ChangeDiffRoom(RangeOf(s).upper - Dif(s), lo, hi);
    assert LowRoom(lo, hi) == LowRoom(s.left, s.right) && HighRoom(lo, hi) == HighRoom(s.left, s.right);
    ChangeDiff(RangeOf(s).upper - Dif(s), lo, hi).ok
  }

  /** What `pvd_unstore` reads from a slot: `bin(dif - lower)[2:].zfill(n)`. */
  function ReadSlot(s: Slot): (bits: seq<bool>)
    ensures |bits| == Width(s)
    ensures BitsToNat(bits) == Dif(s) - RangeOf(s).lower
  {
    FixedBits(Dif(s) - RangeOf(s).lower, Width(s))
  }

  /** Moving the difference of a usable slot to any value of its interval
      succeeds, reaches that value and keeps which value is the larger. */
  lemma SlotMoves(s: Slot, newDif: int)
    requires Usable(s) && RangeOf(s).lower <= newDif <= RangeOf(s).upper
    ensures var res := ChangeDiff(newDif - Dif(s), s.left, s.right);
      && res.ok && 0 <= res.left <= 255 && 0 <= res.right <= 255
      && Abs(res.right - res.left) == newDif
      && (s.left <= s.right ==> res.left <= res.right) && (s.left > s.right ==> res.left >= res.right)
      && ChangeDiff(RangeOf(s).upper - newDif, Min(res.left, res.right), Max(res.left, res.right)).ok
  {
    hide ChangeDiff, Embending;
    WideningStaysPossible(s.left, s.right, RangeOf(s).upper, newDif);
  }

  /** Slot stability: after the move the slot has the same interval and is
      still usable. */
  lemma SlotStable(s: Slot, newDif: int)
    requires Usable(s) && RangeOf(s).lower <= newDif <= RangeOf(s).upper
    ensures var res := ChangeDiff(newDif - Dif(s), s.left, s.right);
      && res.ok && 0 <= res.left <= 255 && 0 <= res.right <= 255
      && var t := Slot(res.left, res.right);
      && Dif(t) == newDif && RangeOf(t) == RangeOf(s) && Usable(t)
  {
    hide ChangeDiff, Embending;
    SlotMoves(s, newDif);
    var res := ChangeDiff(newDif - Dif(s), s.left, s.right);
    var t := Slot(res.left, res.right);
    EmbendingOnInterval(Dif(s), newDif);
  }

  /** What `pvd_store` does to a usable slot given the `n` bits it carries:
      move the pair's difference to `lower + int(bits, 2)`. The slot stays
      in its interval, stays usable, and reads back exactly those bits. */
  function WriteSlot(s: Slot, chunk: seq<bool>): (t: Slot)
    requires Usable(s) && |chunk| == Width(s)
    ensures Dif(t) == RangeOf(s).lower + BitsToNat(chunk)
    ensures (s.left <= s.right ==> t.left <= t.right) && (s.left > s.right ==> t.left >= t.right)
    ensures RangeOf(t) == RangeOf(s) && Usable(t)
    ensures ReadSlot(t) == chunk
  {
    var newDif := RangeOf(s).lower + BitsToNat(chunk);
    SlotMoves(s, newDif);
    SlotStable(s, newDif);
    var res := ChangeDiff(newDif - Dif(s), s.left, s.right);
    if res.ok then
      var t := Slot(res.left, res.right);
      BitsInjective(ReadSlot(t), chunk);
      t
    else
      s
  }

  /** The `n` bits a usable slot of width `n` takes from the bits `rest`
      still to be written: the next `n`, or all that are left padded with
      zeros on the right. */
  function Chunk(rest: seq<bool>, n: nat): (c: seq<bool>)
    ensures |c| == n
    ensures |rest| >= n ==> c == rest[..n]
    ensures |rest| < n ==> c[..|rest|] == rest && AllZero(c[|rest|..])
  {
    if |rest| < n then
      var c := rest + Zeros(n - |rest|);
      assert c[|rest|..] == Zeros(n - |rest|);
      c
    else rest[..n]
  }

  /** The bits left to write after a slot of width `n`: those the slot's
      chunk did not take, and none once the slot has taken them all. */
  function Drop(rest: seq<bool>, n: nat): (r: seq<bool>)
    ensures |r| == if |rest| < n then 0 else |rest| - n
    ensures |rest| >= n ==> r == rest[n..]
  {
    if |rest| < n then [] else rest[n..]
  }

  /** A slot's chunk followed by the bits left after it is the stream
      again, as long as the stream holds the whole chunk; otherwise the
      chunk is the rest of the stream padded with zeros. */
  lemma ChunkThenDrop(rest: seq<bool>, n: nat)
    ensures |rest| >= n ==> Chunk(rest, n) + Drop(rest, n) == rest
    ensures |rest| < n ==> Drop(rest, n) == [] && Chunk(rest, n) == rest + Zeros(n - |rest|)
  {
    if |rest| >= n {
      assert rest[..n] + rest[n..] == rest;
    }
  }

  /** The main loop of `pvd_store`, over the bits `rest` still to be written:
      each usable slot takes the next chunk; once the bits are used up the
      remaining slots are left as they are, and when the slots run out first
      the bits left over are silently dropped. */
  function Store(slots: seq<Slot>, rest: seq<bool>): (out: seq<Slot>)
    ensures |out| == |slots|
  {
    if slots == [] || rest == [] then slots
    else if !Usable(slots[0]) then [slots[0]] + Store(slots[1..], rest)
    else
      var n := Width(slots[0]);
      [WriteSlot(slots[0], Chunk(rest, n))] + Store(slots[1..], Drop(rest, n))
  }

  /** The widths of the usable slots, in traversal order: the layout both
      directions agree on. */
  function Plan(slots: seq<Slot>): (ws: seq<nat>)
    ensures |ws| <= |slots|
    ensures forall i | 0 <= i < |ws| :: 1 <= ws[i] <= 6
  {
    if slots == [] then []
    else (if Usable(slots[0]) then [Width(slots[0])] else []) + Plan(slots[1..])
  }

  /** The total of a layout's widths. */
  function Sum(ws: seq<nat>): nat
  {
    if ws == [] then 0 else ws[0] + Sum(ws[1..])
  }

  /** The number of bits the slots can carry. */
  function Capacity(slots: seq<Slot>): nat
  {
    Sum(Plan(slots))
  }

  /** The bit groups a reader takes from the slots: one per usable slot. */
  function Blocks(slots: seq<Slot>): (bs: seq<seq<bool>>)
    ensures |bs| == |Plan(slots)|
  {
    if slots == [] then []
    else (if Usable(slots[0]) then [ReadSlot(slots[0])] else []) + Blocks(slots[1..])
  }

  /** The blocks `bs` of a layout `ws` carry the stream `rest`: each block
      is the chunk of the stream its width calls for, until the stream is
      used up; the blocks after that are unconstrained. */
  predicate Carries(bs: seq<seq<bool>>, ws: seq<nat>, rest: seq<bool>)
  {
    |bs| == |ws| &&
    (ws == [] || rest == [] ||
     (bs[0] == Chunk(rest, ws[0]) && Carries(bs[1..], ws[1..], Drop(rest, ws[0]))))
  }

  /** `pvd_store` only ever changes usable slots, keeps them usable with
      the same width, and leaves in them exactly the chunks of the stream. */
  lemma {:induction false} StoreCarries(slots: seq<Slot>, rest: seq<bool>)
    ensures Plan(Store(slots, rest)) == Plan(slots)
    ensures Carries(Blocks(Store(slots, rest)), Plan(slots), rest)
    ensures forall i | 0 <= i < |slots| && !Usable(slots[i]) :: Store(slots, rest)[i] == slots[i]
    ensures forall k | 0 <= k <= |slots| && Capacity(slots[..k]) >= |rest| :: Store(slots, rest)[k..] == slots[k..]
  {
    forall i | 0 <= i < |slots| && !Usable(slots[i])
      ensures Store(slots, rest)[i] == slots[i]
    {
      StoreKeepsSkipped(slots, rest, i);
    }
    forall k | 0 <= k <= |slots| && Capacity(slots[..k]) >= |rest|
      ensures Store(slots, rest)[k..] == slots[k..]
    {
      StoreKeepsAfter(slots, rest, k);
    }
    if slots == [] {
    } else if rest == [] {
      assert Store(slots, rest) == slots;
    } else if !Usable(slots[0]) {
      StoreCarries(slots[1..], rest);
      StoreSkips(slots, rest);
    } else {
      StoreCarries(slots[1..], Drop(rest, Width(slots[0])));
      StoreWrites(slots, rest);
    }
  }

  /** The bits still to be written after the first slot. */
  function After(slots: seq<Slot>, rest: seq<bool>): seq<bool>
    requires slots != []
  {
    if Usable(slots[0]) then Drop(rest, Width(slots[0])) else rest
  }

  lemma StoreCons(slots: seq<Slot>, rest: seq<bool>)
    requires slots != [] && rest != []
    ensures Store(slots, rest)[1..] == Store(slots[1..], After(slots, rest))
  {
  }

  /** `pvd_store` leaves a skipped slot as it was. */
  lemma {:induction false} StoreKeepsSkipped(slots: seq<Slot>, rest: seq<bool>, i: nat)
    requires i < |slots| && !Usable(slots[i])
    ensures Store(slots, rest)[i] == slots[i]
  {
    if rest != [] && i > 0 {
      StoreKeepsSkipped(slots[1..], After(slots, rest), i - 1);
      StoreCons(slots, rest);
    }
  }

  /** The bits the first `k + 1` slots carry: those of the first slot, then
      those of the next `k`. */
  lemma CapacityCons(slots: seq<Slot>, k: nat)
    requires k < |slots|
    ensures Capacity(slots[..k + 1]) == (if Usable(slots[0]) then Width(slots[0]) else 0) + Capacity(slots[1..][..k])
  {
    var more := slots[1..][..k];
    assert slots[..k + 1] == [slots[0]] + more;
    PlanCons(slots[0], more);
    var ws := Plan(slots[..k + 1]);
    if Usable(slots[0]) {
      assert ws[0] == Width(slots[0]) && ws[1..] == Plan(more);
    } else {
      assert ws == Plan(more);
    }
  }

  /** `pvd_store` leaves every slot after the end of the stream as it was:
      once the first `k` slots can carry the bits `rest`, the slots from
      the `k`-th on are untouched. */
  lemma {:induction false} StoreKeepsAfter(slots: seq<Slot>, rest: seq<bool>, k: nat)
    requires k <= |slots| && Capacity(slots[..k]) >= |rest|
    ensures Store(slots, rest)[k..] == slots[k..]
  {
    if k == 0 {
      assert slots[..0] == [];
    } else if rest != [] {
      CapacityCons(slots, k - 1);
      StoreKeepsAfter(slots[1..], After(slots, rest), k - 1);
      StoreCons(slots, rest);
      assert slots[1..][k - 1..] == slots[k..];
    }
  }

  lemma PlanCons(s: Slot, more: seq<Slot>)
    ensures Plan([s] + more) == (if Usable(s) then [Width(s)] else []) + Plan(more)
    ensures Blocks([s] + more) == (if Usable(s) then [ReadSlot(s)] else []) + Blocks(more)
  {
    assert ([s] + more)[0] == s && ([s] + more)[1..] == more;
  }

  /** `StoreCarries` past a skipped slot. */
  lemma StoreSkips(slots: seq<Slot>, rest: seq<bool>)
    requires slots != [] && rest != [] && !Usable(slots[0])
    requires Plan(Store(slots[1..], rest)) == Plan(slots[1..])
    requires Carries(Blocks(Store(slots[1..], rest)), Plan(slots[1..]), rest)
    ensures Plan(Store(slots, rest)) == Plan(slots)
    ensures Carries(Blocks(Store(slots, rest)), Plan(slots), rest)
  {
    var more := Store(slots[1..], rest);
    assert Store(slots, rest) == [slots[0]] + more;
    PlanCons(slots[0], more);
    assert [] + Plan(more) == Plan(more) && [] + Blocks(more) == Blocks(more);
    assert [] + Plan(slots[1..]) == Plan(slots[1..]);
    assert Plan(slots) == Plan(slots[1..]);
    assert Blocks(Store(slots, rest)) == Blocks(more);
  }

  /** `StoreCarries` past a written slot. */
  lemma StoreWrites(slots: seq<Slot>, rest: seq<bool>)
    requires slots != [] && rest != [] && Usable(slots[0])
    requires var tail := Drop(rest, Width(slots[0]));
      Plan(Store(slots[1..], tail)) == Plan(slots[1..]) &&
      Carries(Blocks(Store(slots[1..], tail)), Plan(slots[1..]), tail)
    ensures Plan(Store(slots, rest)) == Plan(slots)
    ensures Carries(Blocks(Store(slots, rest)), Plan(slots), rest)
  {
    var n := Width(slots[0]);
    var t := WriteSlot(slots[0], Chunk(rest, n));
    var more := Store(slots[1..], Drop(rest, n));
    assert Store(slots, rest) == [t] + more;
    PlanCons(t, more);
    var bs, ws := Blocks(Store(slots, rest)), Plan(slots);
    assert bs == [Chunk(rest, n)] + Blocks(more);
    assert ws == [n] + Plan(slots[1..]);
    assert bs[0] == Chunk(rest, ws[0]) && bs[1..] == Blocks(more) && ws[1..] == Plan(slots[1..]);
  }

  /** Lines 61-62 of `pvd_store`: the payload as one big-endian integer in
      binary, left-padded with 1 to 8 zeros to a multiple of 8 bits. */
  function PayloadBits(p: seq<byte>): (body: seq<bool>)
    ensures |body| % 8 == 0 && |body| >= 8
    ensures BitsToNat(body) == BytesToNat(p)
    ensures !body[0]
  {
    var t := ToBinary(BytesToNat(p));
    var z := 8 - |t| % 8;
    PadToBytes(|t|);
    LeadingZeros(z, t);
    var body := Zeros(z) + t;
    assert |body| == z + |t| && !body[0];
    body
  }

  /** `8 - n % 8` zeros fill `n` bits up to a whole number of bytes. */
  lemma PadToBytes(n: nat)
    ensures 1 <= 8 - n % 8 <= 8 && (8 - n % 8 + n) % 8 == 0 && 8 - n % 8 + n >= 8
  {
    var q, m := n / 8, n % 8;
    assert n == 8 * q + m;
    assert 8 - m + n == 8 * (q + 1);
  }

  /** The stream `pvd_store` writes: the count of the body bits as a
      big-endian number zero-filled to 32 bits (longer only when the count
      needs more), then the body. */
  function PvdFrame(p: seq<byte>): (f: seq<bool>)
    ensures var body, h := PayloadBits(p), |f| - |PayloadBits(p)|;
      && |f| >= 32 + |body| && f[h..] == body && BitsToNat(f[..h]) == |body|
      && (|body| < Pow2(32) ==> h == 32)
  {
    var body := PayloadBits(p);
    var head := FixedBits(|body|, 32);
    var f := head + body;
    assert f[..|head|] == head && f[|head|..] == body;
    f
  }

  /** A frame whose body length fits the 32-bit count is one the reader
      can parse. */
  lemma PvdFrameFramed(p: seq<byte>)
    requires |PayloadBits(p)| < Pow2(32)
    ensures Framed(PvdFrame(p)) && PvdFrame(p)[32..] == PayloadBits(p)
  {
    hide PvdFrame, PayloadBits;
    var f, body := PvdFrame(p), PayloadBits(p);
    assert |f| - |body| == 32;
    assert f[32..] == body && BitsToNat(f[..32]) == |body|;
  }

  /** The body decodes to the fixed-width big-endian bytes of the payload's
      value, one byte more than the value's binary form fills. */
  lemma PayloadBytesAsNat(p: seq<byte>)
    ensures var t := ToBinary(BytesToNat(p));
      |PayloadBits(p)| == 8 * (|t| / 8 + 1)
      && BytesToNat(p) < Pow2(8 * (|t| / 8 + 1))
      && BitsToBytes(PayloadBits(p)) == NatToBytes(BytesToNat(p), |t| / 8 + 1)
  {
    var t := ToBinary(BytesToNat(p));
    BitsToBytesAsNat(PayloadBits(p), |t| / 8 + 1);
  }

  /** The value of a byte string, split at its first byte. */
  lemma LeadingByteValue(p: seq<byte>)
    requires p != []
    ensures BytesToNat(p) == p[0] * Pow2(8 * (|p| - 1)) + BytesToNat(p[1..])
  {
    var head, tail := [p[0]], p[1..];
    BytesToNatAppend(head, tail);
    assert head + tail == p;
    assert BytesToNat(head) == p[0] by {
      assert head[..0] == [];
    }
  }

  /** The length of the binary form of a value between two powers of two. */
  lemma BinaryLength(v: nat, lo: nat, hi: nat)
    requires Pow2(lo) <= v < Pow2(hi)
    ensures lo < |ToBinary(v)| <= hi
  {
    var t := ToBinary(v);
    Pow2Below(lo, hi);
    ToBinaryShort(v, hi);
    Pow2Below(lo, |t|);
  }

  lemma MulMonotone(a: int, b: int, c: nat)
    requires a <= b
    ensures a * c <= b * c
  {
  }

  /** The value of a non-empty byte string lies between the scales of the
      bounds on its first byte. */
  lemma LeadingByteBounds(p: seq<byte>, lo: nat, hi: nat)
    requires p != [] && lo <= p[0] < hi
    ensures var scale := Pow2(8 * (|p| - 1));
      lo * scale <= BytesToNat(p) < hi * scale
  {
    var scale := Pow2(8 * (|p| - 1));
    var v: int, x: int, r: int := BytesToNat(p), p[0], BytesToNat(p[1..]);
    assert v == x * scale + r && r < scale by {
      LeadingByteValue(p);
    }
    assert lo * scale <= x * scale by {
      MulMonotone(lo, x, scale);
    }
    assert x * scale + scale <= hi * scale by {
      MulBelow(x, hi, scale);
    }
  }

  lemma MulBelow(x: int, y: int, c: nat)
    requires x < y
    ensures x * c + c <= y * c
  {
    assert (x + 1) * c == x * c + c;
    MulMonotone(x + 1, y, c);
  }

  /** `128` times the scale of the first byte is one bit short of the
      whole width. */
  lemma TopBitScale(k: nat)
    requires k >= 1
    ensures 128 * Pow2(8 * (k - 1)) == Pow2(8 * k - 1)
  {
    Pow2Add(7, 8 * (k - 1));
    assert Pow2(7) == 128;
    assert 7 + 8 * (k - 1) == 8 * k - 1;
  }

  /** A payload whose first byte has its top bit set gains a leading zero
      byte. */
  lemma PayloadHighByte(p: seq<byte>)
    requires p != [] && p[0] >= 128
    ensures BitsToBytes(PayloadBits(p)) == [0] + p
  {
    var v, k := BytesToNat(p), |p|;
    LeadingByteBounds(p, 128, 256);
    TopBitScale(k);
    BinaryLength(v, 8 * k - 1, 8 * k);
    var t := ToBinary(v);
    assert |t| / 8 + 1 == k + 1;
    PayloadBytesAsNat(p);
    NatToBytesWiden(v, k);
    NatToBytesOfBytes(p);
  }

  /** A payload whose first byte is between 1 and 127 comes back as it is. */
  lemma PayloadLowByte(p: seq<byte>)
    requires p != [] && 1 <= p[0] < 128
    ensures BitsToBytes(PayloadBits(p)) == p
  {
    var v, k := BytesToNat(p), |p|;
    LeadingByteBounds(p, 1, 128);
    TopBitScale(k);
    BinaryLength(v, 8 * (k - 1), 8 * k - 1);
    var t := ToBinary(v);
    assert |t| / 8 + 1 == k;
    PayloadBytesAsNat(p);
    NatToBytesOfBytes(p);
  }

  /** A leading zero byte does not reach the body. */
  lemma PayloadZeroByte(p: seq<byte>)
    requires p != [] && p[0] == 0
    ensures PayloadBits(p) == PayloadBits(p[1..])
  {
    LeadingByteValue(p);
  }

  /** Lines 61-62 of `pvd_store` followed by `bin_to_bytes_readable`: the
      bytes the body stands for are the payload when it starts with a byte
      of 1 to 127; a first byte of 128 or more gains a zero byte in front;
      a leading zero byte is dropped and the rest decoded the same way; and
      the empty payload becomes one zero byte. */
  lemma PayloadBytes(p: seq<byte>)
    ensures p == [] ==> BitsToBytes(PayloadBits(p)) == [0]
    ensures p != [] && p[0] >= 128 ==> BitsToBytes(PayloadBits(p)) == [0] + p
    ensures p != [] && 1 <= p[0] < 128 ==> BitsToBytes(PayloadBits(p)) == p
    ensures p != [] && p[0] == 0 ==> BitsToBytes(PayloadBits(p)) == BitsToBytes(PayloadBits(p[1..]))
  {
    if p == [] {
      PayloadBytesAsNat(p);
      assert ToBinary(0) == [false];
      assert NatToBytes(0, 1) == [0];
    } else if p[0] >= 128 {
      PayloadHighByte(p);
    } else if p[0] >= 1 {
      PayloadLowByte(p);
    } else {
      PayloadZeroByte(p);
    }
  }

  /** `pvd_store(img, p)`, on the image's slots: it writes the frame into
      the usable slots, without checking that they can hold it. Skipped
      slots, and the slots after the end of the frame, keep their pixels. */
  function PvdStore(slots: seq<Slot>, p: seq<byte>): (out: seq<Slot>)
    ensures |out| == |slots| && Plan(out) == Plan(slots)
    ensures Carries(Blocks(out), Plan(slots), PvdFrame(p))
    ensures forall i | 0 <= i < |slots| && !Usable(slots[i]) :: out[i] == slots[i]
    ensures forall k | 0 <= k <= |slots| && Capacity(slots[..k]) >= |PvdFrame(p)| :: out[k..] == slots[k..]
  {
    StoreCarries(slots, PvdFrame(p));
    Store(slots, PvdFrame(p))
  }

  /** How `pvd_unstore` treats the slot that holds the end of the body:
      as written, its bits are stripped of leading zeros and zero-filled to
      the number of bits still missing; the corrected reader keeps them. */
  datatype TailRule = StripAndRefill | KeepPrefix

  /** `pvd_unstore` while it is still collecting the 32 header bits, over
      the blocks of the usable slots. The block that completes the header
      goes straight on to the next block, without checking whether the body
      is already complete. */
  function ReadHeader(bs: seq<seq<bool>>, acc: seq<bool>, rule: TailRule): (r: seq<byte>)
    requires |acc| < 32
    ensures |acc| + |Flat(bs)| < 32 ==> r == []
    ensures 32 <= |acc| + |Flat(bs)| < 32 + BitsToNat((acc + Flat(bs))[..32]) ==> r == []
    ensures r != [] ==> 32 <= |acc| + |Flat(bs)| && |r| == (BitsToNat((acc + Flat(bs))[..32]) + 7) / 8
  {
    if bs == [] then []
    else
      var acc' := acc + bs[0];
      assert acc + Flat(bs) == acc' + Flat(bs[1..]);
      if |acc'| >= 32 then
        assert (acc + Flat(bs))[..32] == acc'[..32];
        ReadBody(bs[1..], BitsToNat(acc'[..32]), acc'[32..], rule)
      else ReadHeader(bs[1..], acc', rule)
  }

  /** `pvd_unstore` once the header has given the body length `total`. */
  function ReadBody(bs: seq<seq<bool>>, total: nat, got: seq<bool>, rule: TailRule): (r: seq<byte>)
    ensures r == [] || |r| == (total + 7) / 8
    ensures |got| + |Flat(bs)| < total ==> r == []
  {
    if bs == [] then []
    else
      var bits := bs[0];
      var bits' := if |bits| + |got| > total && rule == StripAndRefill
        then ZFill(LStrip(bits), total - |got|) else bits;
      var got' := got + bits';
      if |got'| >= total then BitsToBytes(got'[..total])
      else ReadBody(bs[1..], total, got', rule)
  }

  /** `pvd_unstore(img)`, on the image's slots, as written: nothing when
      the usable slots hold fewer than 32 bits, or fewer than the frame
      that the 32-bit count they start with announces; otherwise, once the
      usable slots before the last complete the header, as many bytes as
      that count calls for. */
  function PvdUnstore(slots: seq<Slot>): (r: seq<byte>)
    ensures Capacity(slots) < 32 ==> r == []
    ensures |Flat(Blocks(slots))| >= 32 && Capacity(slots) < 32 + BitsToNat(Flat(Blocks(slots))[..32]) ==> r == []
    ensures r != [] ==> |Flat(Blocks(slots))| >= 32 && |r| == (BitsToNat(Flat(Blocks(slots))[..32]) + 7) / 8
    ensures var bs := Blocks(slots);
      bs != [] && 32 <= |Flat(bs)| - |bs[|bs| - 1]| && 32 + BitsToNat(Flat(bs)[..32]) <= |Flat(bs)|
      ==> |r| == (BitsToNat(Flat(bs)[..32]) + 7) / 8
  {
    FlatBlocks(slots);
    ReadFromStart(Blocks(slots), StripAndRefill);
    ReadHeader(Blocks(slots), [], StripAndRefill)
  }

  /** The bit groups one after the other. */
  function Flat(bs: seq<seq<bool>>): (f: seq<bool>)
  {
    if bs == [] then [] else bs[0] + Flat(bs[1..])
  }

  /** Reading from the start of the stream: nothing from fewer than 32 bits,
      nothing from fewer bits than the frame the leading count announces,
      and otherwise as many bytes as that count calls for once the groups
      before the last complete the header. */
  lemma ReadFromStart(bs: seq<seq<bool>>, rule: TailRule)
    ensures |Flat(bs)| < 32 ==> ReadHeader(bs, [], rule) == []
    ensures 32 <= |Flat(bs)| < 32 + BitsToNat(Flat(bs)[..32]) ==> ReadHeader(bs, [], rule) == []
    ensures var r := ReadHeader(bs, [], rule);
      r != [] ==> |Flat(bs)| >= 32 && |r| == (BitsToNat(Flat(bs)[..32]) + 7) / 8
    ensures bs != [] && 32 <= |Flat(bs)| - |bs[|bs| - 1]| && 32 + BitsToNat(Flat(bs)[..32]) <= |Flat(bs)|
      ==> |ReadHeader(bs, [], rule)| == (BitsToNat(Flat(bs)[..32]) + 7) / 8
  {
    assert [] + Flat(bs) == Flat(bs);
    if bs != [] && 32 <= |Flat(bs)| - |bs[|bs| - 1]| && 32 + BitsToNat(Flat(bs)[..32]) <= |Flat(bs)| {
      HeaderEnough(bs, [], rule);
    }
  }

  /** The body phase completes the count once the groups still to come
      reach it: it gives the count's bits as whole bytes. */
  lemma {:induction false} BodyEnough(bs: seq<seq<bool>>, total: nat, got: seq<bool>, rule: TailRule)
    requires bs != [] && total <= |got| + |Flat(bs)|
    ensures |ReadBody(bs, total, got, rule)| == (total + 7) / 8
  {
    var bits := bs[0];
    var bits' := if |bits| + |got| > total && rule == StripAndRefill
      then ZFill(LStrip(bits), total - |got|) else bits;
    var got' := got + bits';
    if |got'| < total {
      assert bits' == bits;
      assert |bs| >= 2;
      BodyEnough(bs[1..], total, got', rule);
    }
  }

  /** The header phase gives as many bytes as the count calls for when the
      groups before the last complete the header and all of them hold the
      frame it announces. The last group cannot complete both, because the
      block that completes the header goes straight on to the next. */
  lemma {:induction false} HeaderEnough(bs: seq<seq<bool>>, acc: seq<bool>, rule: TailRule)
    requires |acc| < 32 && bs != [] && 32 <= |acc| + |Flat(bs)| - |bs[|bs| - 1]|
    requires 32 + BitsToNat((acc + Flat(bs))[..32]) <= |acc| + |Flat(bs)|
    ensures |ReadHeader(bs, acc, rule)| == (BitsToNat((acc + Flat(bs))[..32]) + 7) / 8
  {
    var acc' := acc + bs[0];
    assert acc + Flat(bs) == acc' + Flat(bs[1..]);
    assert |bs| >= 2;
    if |acc'| >= 32 {
      assert (acc + Flat(bs))[..32] == acc'[..32];
      BodyEnough(bs[1..], BitsToNat(acc'[..32]), acc'[32..], rule);
    } else {
      HeaderEnough(bs[1..], acc', rule);
    }
  }

  /** The usable slots carry `Capacity` bits between them. */
  lemma {:induction false} FlatBlocks(slots: seq<Slot>)
    ensures |Flat(Blocks(slots))| == Capacity(slots)
  {
    if slots != [] {
      FlatBlocks(slots[1..]);
      var bs, ws := Blocks(slots), Plan(slots);
      if Usable(slots[0]) {
        assert bs[0] == ReadSlot(slots[0]) && bs[1..] == Blocks(slots[1..]);
        assert ws[0] == Width(slots[0]) && ws[1..] == Plan(slots[1..]);
      } else {
        assert bs == Blocks(slots[1..]) && ws == Plan(slots[1..]);
      }
    }
  }

  /** What the as-written reader makes of the last `n`-bit slot when only
      `|rest| < n` of its bits belong to the stream (the rest being padding). */
  function RefillTail(rest: seq<bool>, n: nat): (r: seq<bool>)
    requires |rest| < n
    ensures |r| == |rest|
  {
    ZFill(LStrip(Chunk(rest, n)), |rest|)[..|rest|]
  }

  /** The bits a reader under `rule` recovers in place of the stream `rest`
      laid out over the widths `ws`: everything up to the slot where the
      stream ends, and that slot's share rewritten by the rule when the slot
      overshoots. */
  function Recovered(ws: seq<nat>, rest: seq<bool>, rule: TailRule): (r: seq<bool>)
    ensures |r| == |rest|
  {
    if ws == [] || rest == [] then rest
    else if |rest| < ws[0] then (if rule == KeepPrefix then rest else RefillTail(rest, ws[0]))
    else rest[..ws[0]] + Recovered(ws[1..], rest[ws[0]..], rule)
  }

  /** The stream survives the as-written reader: the final slot's share is
      either complete, or starts with a one, or is all zeros. */
  predicate TailSurvives(ws: seq<nat>, rest: seq<bool>)
  {
    if ws == [] || rest == [] then true
    else if |rest| < ws[0] then rest[0] || AllZero(rest)
    else TailSurvives(ws[1..], rest[ws[0]..])
  }

  /** A body of length zero reads as nothing. */
  lemma {:induction false} ReadBodyNothing(bs: seq<seq<bool>>, got: seq<bool>, rule: TailRule)
    ensures ReadBody(bs, 0, got, rule) == []
  {
  }

  lemma AppendAssoc<T>(a: seq<T>, b: seq<T>, r: seq<T>, c: seq<T>)
    requires a + b == c
    ensures a + (b + r) == c + r
  {
  }

  /** The slot that holds the end of the body: the bits read from it. */
  lemma TailStep(got: seq<bool>, chunk: seq<bool>, m: nat, total: nat)
    requires m <= |chunk| && |got| + m == total
    ensures (got + chunk)[..total] == got + chunk[..m]
  {
  }

  /** A slot wholly inside the stream is rebuilt unchanged. */
  lemma RecoveredCons(ws: seq<nat>, x: seq<bool>, rule: TailRule)
    requires ws != [] && x != [] && |x| >= ws[0]
    ensures Recovered(ws, x, rule) == x[..ws[0]] + Recovered(ws[1..], x[ws[0]..], rule)
  {
  }

  /** Blocks that carry more of the stream than the first width calls for
      start with that many of its bits and carry the rest after them. */
  lemma CarriesNext(bs: seq<seq<bool>>, ws: seq<nat>, rest: seq<bool>)
    requires Carries(bs, ws, rest) && ws != [] && ws[0] < |rest|
    ensures bs[0] == rest[..ws[0]] && Carries(bs[1..], ws[1..], rest[ws[0]..])
  {
  }

  /** What the body phase gives, `got` being the body bits read so far and
      `rest` the rest of the body, carried by the blocks `bs` of widths
      `ws`: the body as the rule recovers it when the blocks hold all of
      it, and nothing otherwise. */
  ghost predicate BodyReads(bs: seq<seq<bool>>, ws: seq<nat>, got: seq<bool>, rest: seq<bool>, rule: TailRule)
  {
    ReadBody(bs, |got| + |rest|, got, rule)
      == if Sum(ws) >= |rest| then BitsToBytes(got + Recovered(ws, rest, rule)) else []
  }

  /** The body phase of reading back a stream that `Store` wrote. */
  lemma {:induction false} BodyPhase(bs: seq<seq<bool>>, ws: seq<nat>, got: seq<bool>, rest: seq<bool>, rule: TailRule)
    requires rest != [] && Carries(bs, ws, rest)
    ensures BodyReads(bs, ws, got, rest, rule)
    decreases |ws|, 1
  {
    if ws == [] {
    } else if ws[0] < |rest| {
      BodyMore(bs, ws, got, rest, rule);
    } else if ws[0] == |rest| {
      BodyLast(bs, ws, got, rest, rule);
    } else if rule == StripAndRefill {
      BodyTailStrip(bs, ws, got, rest);
    } else {
      BodyTailKeep(bs, ws, got, rest);
    }
  }

  /** The body phase when a further block follows: one step of the
      reader, then the rest of the body by induction. */
  lemma {:induction false} BodyMore(bs: seq<seq<bool>>, ws: seq<nat>, got: seq<bool>, rest: seq<bool>, rule: TailRule)
    requires Carries(bs, ws, rest) && ws != [] && ws[0] < |rest|
    ensures BodyReads(bs, ws, got, rest, rule)
    decreases |ws|, 0
  {
    var n := ws[0];
    CarriesNext(bs, ws, rest);
    BodyPhase(bs[1..], ws[1..], got + rest[..n], rest[n..], rule);
    BodyStep(bs, ws, got, rest, rule);
  }

  /** The body phase one block earlier than a phase already read. */
  lemma BodyStep(bs: seq<seq<bool>>, ws: seq<nat>, got: seq<bool>, rest: seq<bool>, rule: TailRule)
    requires ws != [] && ws[0] < |rest| && bs != [] && bs[0] == rest[..ws[0]]
    requires BodyReads(bs[1..], ws[1..], got + rest[..ws[0]], rest[ws[0]..], rule)
    ensures BodyReads(bs, ws, got, rest, rule)
  {
    hide ReadBody, Recovered, BitsToBytes, Flat;
    var n, total := ws[0], |got| + |rest|;
    var r := Recovered(ws[1..], rest[n..], rule);
    ReadBodyStep(bs, total, got, rule);
    assert |got + rest[..n]| + |rest[n..]| == total;
    assert Sum(ws) == n + Sum(ws[1..]);
    RecoveredCons(ws, rest, rule);
    AppendAssoc(got, rest[..n], r, got + rest[..n]);
  }

  /** A block that does not reach the end of the body is taken whole. */
  lemma ReadBodyStep(bs: seq<seq<bool>>, total: nat, got: seq<bool>, rule: TailRule)
    requires bs != [] && |got| + |bs[0]| < total
    ensures ReadBody(bs, total, got, rule) == ReadBody(bs[1..], total, got + bs[0], rule)
  {
  }

  /** The block that ends the body exactly. */
  lemma BodyLast(bs: seq<seq<bool>>, ws: seq<nat>, got: seq<bool>, rest: seq<bool>, rule: TailRule)
    requires rest != [] && Carries(bs, ws, rest) && ws != [] && ws[0] == |rest|
    ensures BodyReads(bs, ws, got, rest, rule)
  {
    var total := |got| + |rest|;
    assert bs[0] == rest;
    assert (got + rest)[..total] == got + rest;
    assert ReadBody(bs, total, got, rule) == BitsToBytes(got + rest);
    RecoveredCons(ws, rest, rule);
    assert rest[..|rest|] == rest && rest[|rest|..] == [];
    assert Recovered(ws[1..], [], rule) == [];
    assert Recovered(ws, rest, rule) == rest;
    assert Sum(ws) >= ws[0];
  }

  /** The as-written reader on the block that overshoots the body. */
  lemma BodyTailStrip(bs: seq<seq<bool>>, ws: seq<nat>, got: seq<bool>, rest: seq<bool>)
    requires rest != [] && Carries(bs, ws, rest) && ws != [] && ws[0] > |rest|
    ensures BodyReads(bs, ws, got, rest, StripAndRefill)
  {
    var n, m := ws[0], |rest|;
    ReadBodyStrip(bs, |got| + m, got, m);
    assert bs[0] == Chunk(rest, n);
    assert RefillTail(rest, n) == ZFill(LStrip(bs[0]), m)[..m];
    assert Recovered(ws, rest, StripAndRefill) == RefillTail(rest, n);
    assert Sum(ws) >= n;
  }

  /** The step of the as-written body phase in which the slot overshoots
      the body: its bits are stripped and refilled to the `m` bits still
      due. */
  lemma ReadBodyStrip(bs: seq<seq<bool>>, total: nat, got: seq<bool>, m: nat)
    requires bs != [] && m == total - |got| && 0 < m < |bs[0]|
    ensures |ZFill(LStrip(bs[0]), m)| >= m
    ensures ReadBody(bs, total, got, StripAndRefill) == BitsToBytes(got + ZFill(LStrip(bs[0]), m)[..m])
  {
    TailStep(got, ZFill(LStrip(bs[0]), m), m, total);
  }

  /** The corrected reader on the block that overshoots the body. */
  lemma BodyTailKeep(bs: seq<seq<bool>>, ws: seq<nat>, got: seq<bool>, rest: seq<bool>)
    requires rest != [] && Carries(bs, ws, rest) && ws != [] && ws[0] > |rest|
    ensures BodyReads(bs, ws, got, rest, KeepPrefix)
  {
    TailStep(got, bs[0], |rest|, |got| + |rest|);
    assert bs[0][..|rest|] == rest;
  }

  /** The frame `f` starts with a 32-bit count of the bits after it, a
      whole number of bytes. */
  predicate Framed(f: seq<bool>)
  {
    32 <= |f| && (|f| - 32) % 8 == 0 && BitsToNat(f[..32]) == |f| - 32
  }

  /** What reading the header and then the body gives, `acc` being the
      header bits collected so far and `rest` the rest of the frame, carried
      by the blocks `bs` of widths `ws`. */
  ghost predicate HeaderReads(bs: seq<seq<bool>>, ws: seq<nat>, acc: seq<bool>, rest: seq<bool>, rule: TailRule)
    requires |acc| < 32 <= |acc| + |rest|
  {
    ReadHeader(bs, acc, rule)
      == if Sum(ws) >= |rest| then BitsToBytes((acc + Recovered(ws, rest, rule))[32..]) else []
  }

  lemma EightOrMore(x: int)
    requires x > 0 && x % 8 == 0
    ensures x >= 8
  {
  }

  /** The header phase of reading back a framed stream that `Store` wrote,
      over slots of at most six bits. */
  lemma {:induction false} HeaderPhase(bs: seq<seq<bool>>, ws: seq<nat>, acc: seq<bool>, rest: seq<bool>, rule: TailRule)
    requires |acc| < 32 && Framed(acc + rest) && Carries(bs, ws, rest)
    requires forall i | 0 <= i < |ws| :: ws[i] <= 6
    ensures HeaderReads(bs, ws, acc, rest, rule)
    decreases |ws|, 1
  {
    if ws != [] {
      if |acc| + ws[0] < 32 {
        HeaderMore(bs, ws, acc, rest, rule);
      } else if |acc + rest| == 32 {
        HeaderEmpty(bs, ws, acc, rest, rule);
      } else {
        HeaderDone(bs, ws, acc, rest, rule);
      }
    }
  }

  /** The header phase when the next block does not complete the header:
      one step of the reader, then the rest by induction. */
  lemma {:induction false} HeaderMore(bs: seq<seq<bool>>, ws: seq<nat>, acc: seq<bool>, rest: seq<bool>, rule: TailRule)
    requires |acc| < 32 && Framed(acc + rest) && Carries(bs, ws, rest) && ws != [] && |acc| + ws[0] < 32
    requires forall i | 0 <= i < |ws| :: ws[i] <= 6
    ensures HeaderReads(bs, ws, acc, rest, rule)
    decreases |ws|, 0
  {
    var n := ws[0];
    CarriesNext(bs, ws, rest);
    assert rest[..n] + rest[n..] == rest;
    AppendAssoc(acc, rest[..n], rest[n..], acc + rest[..n]);
    assert forall i | 0 <= i < |ws[1..]| :: ws[1..][i] == ws[i + 1];
    HeaderPhase(bs[1..], ws[1..], acc + rest[..n], rest[n..], rule);
    HeaderStep(bs, ws, acc, rest, rule);
  }

  /** The header phase one block earlier than a phase already read. */
  lemma HeaderStep(bs: seq<seq<bool>>, ws: seq<nat>, acc: seq<bool>, rest: seq<bool>, rule: TailRule)
    requires ws != [] && bs != [] && |acc| + ws[0] < 32 <= |acc| + |rest| && bs[0] == rest[..ws[0]]
    requires HeaderReads(bs[1..], ws[1..], acc + rest[..ws[0]], rest[ws[0]..], rule)
    ensures HeaderReads(bs, ws, acc, rest, rule)
  {
    var n := ws[0];
    var r := Recovered(ws[1..], rest[n..], rule);
    assert ReadHeader(bs, acc, rule) == ReadHeader(bs[1..], acc + rest[..n], rule);
    RecoveredCons(ws, rest, rule);
    AppendAssoc(acc, rest[..n], r, acc + rest[..n]);
  }

  /** A frame of 32 bits, the header alone: the body is empty. */
  lemma HeaderEmpty(bs: seq<seq<bool>>, ws: seq<nat>, acc: seq<bool>, rest: seq<bool>, rule: TailRule)
    requires |acc| < 32 && |acc + rest| == 32 && Framed(acc + rest) && Carries(bs, ws, rest)
    requires ws != [] && |acc| + ws[0] >= 32
    ensures HeaderReads(bs, ws, acc, rest, rule)
  {
    var f, acc' := acc + rest, acc + bs[0];
    assert bs[0][..|rest|] == rest;
    assert acc'[..32] == f == f[..32];
    assert BitsToNat(acc'[..32]) == 0;
    ReadBodyNothing(bs[1..], acc'[32..], rule);
    assert ReadHeader(bs, acc, rule) == [];
    assert BitsToBytes([]) == [];
    assert (acc + Recovered(ws, rest, rule))[32..] == [];
    assert Sum(ws) >= ws[0];
  }

  /** The block that completes the header, followed by the body phase. */
  lemma HeaderDone(bs: seq<seq<bool>>, ws: seq<nat>, acc: seq<bool>, rest: seq<bool>, rule: TailRule)
    requires |acc| < 32 && |acc + rest| > 32 && Framed(acc + rest) && Carries(bs, ws, rest)
    requires ws != [] && 32 <= |acc| + ws[0] <= 37
    ensures HeaderReads(bs, ws, acc, rest, rule)
  {
    hide ReadHeader, ReadBody, Recovered, BitsToBytes, Flat;
    var n, total := ws[0], |acc + rest| - 32;
    assert total >= 8 by {
      EightOrMore(total);
    }
    CarriesNext(bs, ws, rest);
    var acc' := acc + rest[..n];
    var got, rest' := acc'[32..], rest[n..];
    var r := Recovered(ws[1..], rest', rule);
    HeaderCompletes(bs, acc, rest, n, rule);
    assert |got| + |rest'| == total;
    BodyPhase(bs[1..], ws[1..], got, rest', rule);
    HeaderSplit(acc, rest, n, r);
    RecoveredCons(ws, rest, rule);
    assert Sum(ws) == n + Sum(ws[1..]);
  }

  /** The block that completes the header hands the rest of its bits to the
      body phase, with the length the header announces. */
  lemma HeaderCompletes(bs: seq<seq<bool>>, acc: seq<bool>, rest: seq<bool>, n: nat, rule: TailRule)
    requires |acc| < 32 <= |acc| + n && n <= |rest| && Framed(acc + rest)
    requires bs != [] && bs[0] == rest[..n]
    ensures ReadHeader(bs, acc, rule) == ReadBody(bs[1..], |acc + rest| - 32, (acc + rest[..n])[32..], rule)
  {
    var acc' := acc + rest[..n];
    assert acc + bs[0] == acc';
    assert acc'[..32] == (acc + rest)[..32];
  }

  /** The block that completes the header: what it leaves over for the body. */
  lemma HeaderSplit(acc: seq<bool>, rest: seq<bool>, n: nat, r: seq<bool>)
    requires |acc| < 32 <= |acc| + n && n <= |rest|
    ensures (acc + rest[..n])[..32] == (acc + rest)[..32]
    ensures (acc + (rest[..n] + r))[32..] == (acc + rest[..n])[32..] + r
  {
    assert acc + (rest[..n] + r) == (acc + rest[..n]) + r;
  }

  /** Reading back, under either rule, a framed stream that `Store` wrote:
      nothing when the usable slots cannot hold all of it, and otherwise the
      bytes of the body as the rule recovers it. */
  lemma ReadBackFramed(slots: seq<Slot>, f: seq<bool>, rule: TailRule)
    requires Framed(f)
    ensures ReadHeader(Blocks(Store(slots, f)), [], rule)
      == if Capacity(slots) >= |f| then BitsToBytes(Recovered(Plan(slots), f, rule)[32..]) else []
  {
    var bs := Blocks(Store(slots, f));
    StoreCarries(slots, f);
    assert [] + f == f;
    HeaderPhase(bs, Plan(slots), [], f, rule);
    assert [] + Recovered(Plan(slots), f, rule) == Recovered(Plan(slots), f, rule);
  }

  /** What `pvd_unstore` returns for an image `pvd_store` wrote `p` into:
      nothing when the usable slots cannot hold the whole frame (the store
      reported no error), and otherwise the bytes of the body as the
      as-written reader recovers it. */
  lemma PvdReadBack(slots: seq<Slot>, p: seq<byte>)
    requires |PayloadBits(p)| < Pow2(32)
    ensures PvdUnstore(PvdStore(slots, p))
      == if Capacity(slots) >= |PvdFrame(p)| then BitsToBytes(Recovered(Plan(slots), PvdFrame(p), StripAndRefill)[32..]) else []
  {
    PvdFrameFramed(p);
    ReadBackFramed(slots, PvdFrame(p), StripAndRefill);
  }

  /** The corrected rule recovers every stream unchanged. */
  lemma {:induction false} RecoveredKeep(ws: seq<nat>, rest: seq<bool>)
    ensures Recovered(ws, rest, KeepPrefix) == rest
  {
    if ws != [] && rest != [] && |rest| >= ws[0] {
      RecoveredKeep(ws[1..], rest[ws[0]..]);
      assert rest[..ws[0]] + rest[ws[0]..] == rest;
    }
  }

  /** The stream `f[..k]` ends at least six bits before the stream does:
      no rule touches it, since no slot carries more than six bits. */
  lemma {:induction false} RecoveredFront(ws: seq<nat>, rest: seq<bool>, rule: TailRule, k: nat)
    requires forall i | 0 <= i < |ws| :: ws[i] <= 6
    requires k + 6 <= |rest|
    ensures Recovered(ws, rest, rule)[..k] == rest[..k]
  {
    if ws != [] && rest != [] {
      var n := ws[0];
      assert forall i | 0 <= i < |ws[1..]| :: ws[1..][i] == ws[i + 1];
      var tail := Recovered(ws[1..], rest[n..], rule);
      if k > n {
        RecoveredFront(ws[1..], rest[n..], rule, k - n);
        assert (rest[..n] + tail)[..k] == rest[..n] + tail[..k - n];
        assert rest[..k] == rest[..n] + rest[n..][..k - n];
      } else {
        assert (rest[..n] + tail)[..k] == rest[..n][..k];
      }
    }
  }

  /** A bit string that starts with a one has no leading zeros to strip. */
  lemma LStripLeadingOne(s: seq<bool>)
    requires s != [] && s[0]
    ensures LStrip(s) == s
  {
    var r := LStrip(s);
    assert s[0] == (Zeros(|s| - |r|) + r)[0];
    assert Zeros(0) + r == r;
  }

  /** An all-zero bit string strips to nothing. */
  lemma {:induction false} LStripAllZero(s: seq<bool>)
    requires AllZero(s)
    ensures LStrip(s) == []
  {
    if s != [] {
      LStripAllZero(s[1..]);
    }
  }

  /** The padded chunk of a stream tail that does not fill its slot. */
  lemma ChunkTail(rest: seq<bool>, n: nat, i: nat)
    requires |rest| < n && i < n
    ensures Chunk(rest, n)[i] == (i < |rest| && rest[i])
  {
    var c := Chunk(rest, n);
    if i < |rest| {
      assert c[..|rest|][i] == c[i];
    } else {
      assert c[|rest|..][i - |rest|] == c[i];
    }
  }

  /** The leftover bits that start with a zero and are not all zeros come
      back shifted: the first one moves left. */
  lemma RefillTailShifts(rest: seq<bool>, n: nat, j: nat)
    requires |rest| < n && j < |rest| && rest[j] && !rest[0]
    ensures RefillTail(rest, n) != rest
  {
    var m, c := |rest|, Chunk(rest, n);
    var l := LStrip(c);
    var z := n - |l|;
    assert c == Zeros(z) + l;
    ChunkTail(rest, n, j);
    ChunkTail(rest, n, 0);
    assert forall i | 0 <= i < z :: !c[i];
    assert l[0] == c[z];
    var r := ZFill(l, m);
    if |l| >= m {
      assert r == l && RefillTail(rest, n)[0] == l[0];
    } else {
      var i := m - |l|;
      assert r[i] == l[0];
      assert RefillTail(rest, n)[i] == r[i];
      ChunkTail(rest, n, i);
    }
  }

  /** The as-written rule gives back the leftover bits of the slot that
      holds the end of the stream exactly when they start with a one or are
      all zeros. */
  lemma RefillTailIff(rest: seq<bool>, n: nat)
    requires 0 < |rest| < n
    ensures RefillTail(rest, n) == rest <==> rest[0] || AllZero(rest)
  {
    var m, c := |rest|, Chunk(rest, n);
    if rest[0] {
      ChunkTail(rest, n, 0);
      LStripLeadingOne(c);
      assert ZFill(c, m) == c;
      assert c[..m] == rest;
    } else if AllZero(rest) {
      forall i | 0 <= i < n
        ensures !c[i]
      {
        ChunkTail(rest, n, i);
      }
      LStripAllZero(c);
      assert RefillTail(rest, n) == Zeros(m);
    } else {
      var j :| 0 <= j < m && rest[j];
      RefillTailShifts(rest, n, j);
    }
  }

  /** `TailSurvives` is exactly the condition under which the as-written
      rule recovers the stream. */
  lemma {:induction false} SurvivesIff(ws: seq<nat>, rest: seq<bool>)
    ensures TailSurvives(ws, rest) <==> Recovered(ws, rest, StripAndRefill) == rest
  {
    if ws != [] && rest != [] {
      var n := ws[0];
      if |rest| < n {
        RefillTailIff(rest, n);
      } else {
        SurvivesIff(ws[1..], rest[n..]);
        SurvivesStep(ws, rest);
      }
    }
  }

  /** `SurvivesIff` past a slot wholly inside the stream. */
  lemma SurvivesStep(ws: seq<nat>, rest: seq<bool>)
    requires ws != [] && rest != [] && ws[0] <= |rest|
    requires TailSurvives(ws[1..], rest[ws[0]..]) <==> Recovered(ws[1..], rest[ws[0]..], StripAndRefill) == rest[ws[0]..]
    ensures TailSurvives(ws, rest) <==> Recovered(ws, rest, StripAndRefill) == rest
  {
    hide RefillTail;
    var n := ws[0];
    var tail := Recovered(ws[1..], rest[n..], StripAndRefill);
    assert Recovered(ws, rest, StripAndRefill) == rest[..n] + tail;
    assert rest[..n] + rest[n..] == rest;
    assert (rest[..n] + tail)[n..] == tail;
  }

  /** On a frame of whole bytes, the body decodes as written exactly when
      the rule recovers the whole frame unchanged. */
  lemma RecoveredBodyIff(ws: seq<nat>, f: seq<bool>, rule: TailRule)
    requires forall i | 0 <= i < |ws| :: ws[i] <= 6
    requires |f| >= 38 && |f| % 8 == 0
    ensures BitsToBytes(Recovered(ws, f, rule)[32..]) == BitsToBytes(f[32..]) <==> Recovered(ws, f, rule) == f
  {
    var g := Recovered(ws, f, rule);
    if BitsToBytes(g[32..]) == BitsToBytes(f[32..]) {
      BitsToBytesInjective(g[32..], f[32..]);
      RecoveredFront(ws, f, rule, 32);
      assert g == g[..32] + g[32..] && f == f[..32] + f[32..];
    }
  }

  /** `pvd_unstore` gives back the body `pvd_store` wrote exactly when the
      usable slots hold the whole frame and the leftover bits of the last
      slot start with a one or are all zeros. */
  lemma PvdRoundTripIff(slots: seq<Slot>, p: seq<byte>)
    requires |PayloadBits(p)| < Pow2(32)
    ensures PvdUnstore(PvdStore(slots, p)) == BitsToBytes(PayloadBits(p))
      <==> Capacity(slots) >= |PvdFrame(p)| && TailSurvives(Plan(slots), PvdFrame(p))
  {
    var f, ws := PvdFrame(p), Plan(slots);
    PvdReadBack(slots, p);
    PvdFrameFramed(p);
    SurvivesIff(ws, f);
    RecoveredBodyIff(ws, f, StripAndRefill);
  }

  /** Why the corrected embedder refuses a payload. */
  datatype PvdError =
    | CountOverflow(bits: nat)
    | CapacityExceeded(needed: nat, available: nat)

  /** The corrected frame: the payload's bit count in 32 bits, then the
      payload's bytes at eight bits each, leading zero bytes included. */
  function ExactFrame(p: seq<byte>): (f: seq<bool>)
    requires 8 * |p| < Pow2(32)
    ensures Framed(f) && f[32..] == BytesToBits(p)
  {
    var body := BytesToBits(p);
    var head := FixedBits(|body|, 32);
    assert |head| == 32 && BitsToNat(head) == |body|;
    var f := head + body;
    assert f[..32] == head && f[32..] == body;
    assert |f| - 32 == |body|;
    f
  }

  /** `pvd_store` as evidently intended: it refuses a payload whose bit
      count does not fit the header or whose frame does not fit the usable
      slots, instead of writing part of it. */
  function PvdEmbed(slots: seq<Slot>, p: seq<byte>): (r: Result<seq<Slot>, PvdError>)
    ensures r.Failure? <==> 8 * |p| >= Pow2(32) || Capacity(slots) < 32 + 8 * |p|
    ensures r.Success? ==> |r.value| == |slots| && Plan(r.value) == Plan(slots)
  {
    if 8 * |p| >= Pow2(32) then Failure(CountOverflow(8 * |p|))
    else if Capacity(slots) < 32 + 8 * |p| then Failure(CapacityExceeded(32 + 8 * |p|, Capacity(slots)))
    else
      StoreCarries(slots, ExactFrame(p));
      Success(Store(slots, ExactFrame(p)))
  }

  /** `pvd_unstore` as evidently intended: the slot that holds the end of
      the body gives its first bits unchanged. */
  function PvdExtract(slots: seq<Slot>): (r: seq<byte>)
    ensures Capacity(slots) < 32 ==> r == []
    ensures |Flat(Blocks(slots))| >= 32 && Capacity(slots) < 32 + BitsToNat(Flat(Blocks(slots))[..32]) ==> r == []
    ensures r != [] ==> |Flat(Blocks(slots))| >= 32 && |r| == (BitsToNat(Flat(Blocks(slots))[..32]) + 7) / 8
    ensures var bs := Blocks(slots);
      bs != [] && 32 <= |Flat(bs)| - |bs[|bs| - 1]| && 32 + BitsToNat(Flat(bs)[..32]) <= |Flat(bs)|
      ==> |r| == (BitsToNat(Flat(bs)[..32]) + 7) / 8
  {
    FlatBlocks(slots);
    ReadFromStart(Blocks(slots), KeepPrefix);
    ReadHeader(Blocks(slots), [], KeepPrefix)
  }

  /** Whatever the corrected embedder accepts, the corrected reader gives
      back byte for byte. */
  lemma PvdEmbedRoundTrip(slots: seq<Slot>, p: seq<byte>)
    ensures PvdEmbed(slots, p).Success? ==> PvdExtract(PvdEmbed(slots, p).value) == p
  {
    if PvdEmbed(slots, p).Success? {
      var f := ExactFrame(p);
      ReadBackFramed(slots, f, KeepPrefix);
      RecoveredKeep(Plan(slots), f);
      BitsToBytesOfBytes(p);
    }
  }
}

=== FILE: quantize.dfy ===
/** The two pixel-pair primitives of the adaptive pixel-value-differencing
    (PVD) scheme: the quantisation table `embending`, which maps a pair's
    difference to an interval and a bit width, and `change_diff`, which moves
    the two values of a pair apart or together by a given amount. */
module Quantize {
  import opened Bits

  /** The interval boundaries of the quantisation table. */
  const Bounds: seq<int> := [0, 2, 4, 8, 12, 16, 24, 32, 48, 64, 96, 128, 192, 256]

  /** `bisect.bisect_right(a, x)` on an ascending `a`: the number of leading
      entries that are at most `x`. */
  function BisectRight(a: seq<int>, x: int): (k: nat)
    ensures k <= |a|
    ensures forall i | 0 <= i < k :: a[i] <= x
    ensures k < |a| ==> a[k] > x
  {
    if a == [] || a[0] > x then 0 else 1 + BisectRight(a[1..], x)
  }

  /** The count `bisect_right` gives is the first position whose entry
      exceeds `x`, when every entry before it is at most `x`. */
  lemma {:induction false} BisectAt(a: seq<int>, x: int, k: nat)
    requires k < |a| && a[k] > x && forall i | 0 <= i < k :: a[i] <= x
    ensures BisectRight(a, x) == k
  {
    if k > 0 {
      BisectAt(a[1..], x, k - 1);
    }
  }

  /** `int(np.log2(w))` for `w >= 1`: the floor of the base-2 logarithm. */
  function Log2(w: nat): (e: nat)
    requires w >= 1
    ensures Pow2(e) <= w < 2 * Pow2(e)
  {
    if w < 2 then 0 else 1 + Log2(w / 2)
  }

  /** `(lower, bits, maxr)` of the `embending` table: the differences
      `lower .. upper` each carry `bits` bits. */
  datatype Range = Range(lower: int, bits: nat, upper: int)

  /** Every interval of the table is a power of two wide, 2 to 64. */
  lemma TableEntry(l: nat)
    requires l < |Bounds| - 1
    ensures var w := Bounds[l + 1] - Bounds[l];
      w >= 1 && Pow2(Log2(w)) == w && 1 <= Log2(w) <= 6
  {
    var w := Bounds[l + 1] - Bounds[l];
    var e := if l < 2 then 1 else if l < 5 then 2 else if l < 7 then 3 else if l < 9 then 4 else if l < 11 then 5 else 6;
    assert w == Pow2(e) by {
      assert Pow2(1) == 2 && Pow2(2) == 4 && Pow2(3) == 8;
      assert Pow2(4) == 16 && Pow2(5) == 32 && Pow2(6) == 64;
    }
    Log2OfPow2(e);
  }

  /** The logarithm of a power of two is its exponent. */
  lemma {:induction false} Log2OfPow2(e: nat)
    ensures Log2(Pow2(e)) == e
  {
    if e > 0 {
      Log2OfPow2(e - 1);
      assert Pow2(e) / 2 == Pow2(e - 1);
    }
  }

  /** `embending(n)`: the table interval holding the difference `n`; every
      difference of `0 .. 255` lies in an interval whose width is a power of
      two between 2 and 64. */
  function Embending(n: int): (r: Range)
    requires 0 <= n <= 255
    ensures 0 <= r.lower <= n <= r.upper <= 255
    ensures 1 <= r.bits <= 6
    ensures r.upper == r.lower + Pow2(r.bits) - 1
  {
    assert Bounds[0] <= n < Bounds[13];
    var l := BisectRight(Bounds, n) - 1;
    TableEntry(l);
    Range(Bounds[l], Log2(Bounds[l + 1] - Bounds[l]), Bounds[l + 1] - 1)
  }

  lemma BoundsAscending(i: nat, j: nat)
    requires i <= j < |Bounds|
    ensures Bounds[i] <= Bounds[j]
  {
  }

  /** All differences of one interval get the same table entry. */
  lemma EmbendingOnInterval(n: int, m: int)
    requires 0 <= n <= 255
    requires Embending(n).lower <= m <= Embending(n).upper
    ensures Embending(m) == Embending(n)
  {
    var k, k' := BisectRight(Bounds, n), BisectRight(Bounds, m);
    if k' < k {
      BoundsAscending(k', k - 1);
    }
  }

  function Min(a: int, b: int): int
  {
    if a <= b then a else b
  }

  function Max(a: int, b: int): int
  {
    if a <= b then b else a
  }

  function Abs(x: int): nat
  {
    if x < 0 then -x else x
  }

  /** The `(ok, left, right)` triple `change_diff` returns. */
  datatype Adjusted = Adjusted(ok: bool, left: int, right: int)

  /** `change_diff(diff, l, r)`: change the difference of the pair `(l, r)`
      by `diff`, half on each side, keeping which value is the larger.
      The pixel values are 8-bit; arithmetic on them is unbounded here.
      What a successful change does to the pair is stated by
      `ChangeDiffMoves`, `ChangeDiffSum` and `ChangeDiffRooms`. */
  function ChangeDiff(diff: int, l: byte, r: byte): (res: Adjusted)
    // a widening fails exactly when one side has less room than half of it,
    // or when both have exactly half of an odd widening; a narrowing never fails
    ensures !res.ok <==> diff > 0 && (Min(l, r) < diff / 2 || 255 - Max(l, r) < diff / 2
                                      || (diff % 2 == 1 && Min(l, r) == diff / 2 && 255 - Max(l, r) == diff / 2))
    ensures !res.ok ==> res == Adjusted(false, 0, 0)
    ensures diff == 0 ==> res == Adjusted(true, l, r)
  {
    var swap := l > r;
    var lo, hi := (if swap then r else l), (if swap then l else r);
    // sg * (|diff| // 2) and sg * (|diff| % 2): halves truncated towards zero
    var half := if diff < 0 then -((-diff) / 2) else diff / 2;
    var odd := diff - 2 * half;
    var lo1, hi1 := lo - half, hi + half;
    if lo1 < 0 || hi1 > 255 || (odd > 0 && lo1 == 0 && hi1 == 255) then
      Adjusted(false, 0, 0)
    else
      var takeLow := (odd > 0 && lo1 > 255 - hi1) || (odd < 0 && lo1 < 255 - hi1);
      var lo2, hi2 := (if takeLow then lo1 - odd else lo1), (if takeLow then hi1 else hi1 + odd);
      if swap then Adjusted(true, hi2, lo2) else Adjusted(true, lo2, hi2)
  }

  /** On success with a non-negative target difference, both values stay
      8-bit, the difference is exactly the target, and the order is kept. */
  lemma ChangeDiffMoves(diff: int, l: byte, r: byte)
    requires ChangeDiff(diff, l, r).ok && Abs(r - l) + diff >= 0
    ensures var res := ChangeDiff(diff, l, r);
      && 0 <= res.left <= 255 && 0 <= res.right <= 255
      && Abs(res.right - res.left) == Abs(r - l) + diff
      && (l <= r ==> res.left <= res.right)
      && (l > r ==> res.left >= res.right)
  {
  }

  /** The pair's sum is kept, except that the odd unit of an odd change
      moves it one step towards 255 (the side with more room gives or the
      side with less room takes), or away from 255 when it is already there. */
  lemma ChangeDiffSum(diff: int, l: byte, r: byte)
    requires ChangeDiff(diff, l, r).ok
    ensures var res := ChangeDiff(diff, l, r);
      var s, s' := l + r, res.left + res.right;
      && (diff % 2 == 0 ==> s' == s)
      && (diff % 2 == 1 ==> Abs(s' - s) == 1 && Abs(s' - 255) == (if s == 255 then 1 else Abs(s - 255) - 1))
  {
  }

  /** The room below the smaller value of a pair. */
  function LowRoom(l: int, r: int): int
  {
    Min(l, r)
  }

  /** The room above the larger value of a pair. */
  function HighRoom(l: int, r: int): int
  {
    255 - Max(l, r)
  }

  /** Rooms `a` and `b` allow a widening by `w >= 0`: each holds half of it
      and together they hold all of it. */
  predicate Room(a: int, b: int, w: int)
  {
    a >= w / 2 && b >= w / 2 && a + b >= w
  }

  /** A widening succeeds exactly when the rooms allow it. */
  lemma ChangeDiffRoom(w: int, l: byte, r: byte)
    requires w >= 0
    ensures ChangeDiff(w, l, r).ok <==> Room(LowRoom(l, r), HighRoom(l, r), w)
  {
    var a, b := LowRoom(l, r), HighRoom(l, r);
    if w % 2 == 1 && a >= w / 2 && b >= w / 2 {
      assert w == 2 * (w / 2) + 1;
    }
  }

  /** The rooms after a successful change: together they shrink by the
      change, and the smaller one shrinks by half of it, and by one more
      only when an odd change leaves two equal rooms. The odd unit is always
      spent on the side that keeps the rooms balanced. */
  lemma ChangeDiffRooms(diff: int, l: byte, r: byte)
    requires ChangeDiff(diff, l, r).ok && Abs(r - l) + diff >= 0
    ensures var res := ChangeDiff(diff, l, r);
      var a, b := LowRoom(l, r), HighRoom(l, r);
      var a', b' := LowRoom(res.left, res.right), HighRoom(res.left, res.right);
      && a' + b' == a + b - diff
      && Min(a', b') == Min(a, b) - diff / 2 - (if diff % 2 == 1 && a == b then 1 else 0)
  {
    ChangeDiffMoves(diff, l, r);
  }

  /** Rooms that allow a widening by `w` still allow the rest of it after a
      change by `diff <= w` that leaves them as `ChangeDiffRooms` says. */
  lemma RoomKept(a: int, b: int, w: int, diff: int, a': int, b': int)
    requires Room(a, b, w) && diff <= w
    requires a' + b' == a + b - diff
    requires Min(a', b') == Min(a, b) - diff / 2 - (if diff % 2 == 1 && a == b then 1 else 0)
    ensures Room(a', b', w - diff)
  {
    var h, m := diff / 2, Min(a, b);
    assert diff == 2 * h + diff % 2;
    assert m >= w / 2;
    if diff % 2 == 1 {
      assert (w - diff) / 2 == (w - 1) / 2 - h;
      if a == b {
        assert 2 * m >= w;
      }
    } else {
      assert (w - diff) / 2 == w / 2 - h;
    }
  }

  /** A pair that can be widened to `top` can have its difference moved to
      any `target` in `0 .. top`, and afterwards can still be widened to
      `top`: `change_diff` spends its odd unit so as to keep the two rooms
      (below the smaller value, above the larger one) balanced. */
  lemma WideningStaysPossible(l: byte, r: byte, top: int, target: int)
    requires Abs(r - l) <= top <= 255 && 0 <= target <= top
    requires ChangeDiff(top - Abs(r - l), Min(l, r), Max(l, r)).ok
    ensures var res := ChangeDiff(target - Abs(r - l), l, r);
      && res.ok && 0 <= res.left <= 255 && 0 <= res.right <= 255
      && Abs(res.right - res.left) == target
      && (l <= r ==> res.left <= res.right) && (l > r ==> res.left >= res.right)
      && ChangeDiff(top - target, Min(res.left, res.right), Max(res.left, res.right)).ok
  {
    hide ChangeDiff;
    var diff := target - Abs(r - l);
    MoveWithinRoom(l, r, top, target);
    ChangeDiffMoves(diff, l, r);
    WideningAfterMove(l, r, top, target);
  }

  /** The rooms of a pair that can be widened to `top` allow that widening,
      and the move to `target` succeeds. */
  lemma MoveWithinRoom(l: byte, r: byte, top: int, target: int)
    requires Abs(r - l) <= top <= 255 && 0 <= target <= top
    requires ChangeDiff(top - Abs(r - l), Min(l, r), Max(l, r)).ok
    ensures Room(LowRoom(l, r), HighRoom(l, r), top - Abs(r - l))
    ensures ChangeDiff(target - Abs(r - l), l, r).ok
  {
    hide ChangeDiff;
    var d, lo, hi := Abs(r - l), Min(l, r), Max(l, r);
    var w, diff := top - d, target - d;
    var a, b := LowRoom(l, r), HighRoom(l, r);
    assert Room(a, b, w) by {
      ChangeDiffRoom(w, lo, hi);
      assert LowRoom(lo, hi) == a && HighRoom(lo, hi) == b;
    }
    if diff > 0 {
      ChangeDiffRoom(diff, l, r);
      assert diff / 2 <= w / 2;
    }
  }

  /** After a move to `target` inside rooms that allow a widening to `top`,
      the pair can still be widened to `top`. */
  lemma WideningAfterMove(l: byte, r: byte, top: int, target: int)
    requires Abs(r - l) <= top <= 255 && 0 <= target <= top
    requires Room(LowRoom(l, r), HighRoom(l, r), top - Abs(r - l))
    requires ChangeDiff(target - Abs(r - l), l, r).ok
    ensures var res := ChangeDiff(target - Abs(r - l), l, r);
      ChangeDiff(top - target, Min(res.left, res.right), Max(res.left, res.right)).ok
  {
    hide ChangeDiff;
    var d := Abs(r - l);
    var w, diff := top - d, target - d;
    var res := ChangeDiff(diff, l, r);
    ChangeDiffMoves(diff, l, r);
    var lo', hi' := Min(res.left, res.right), Max(res.left, res.right);
    var a', b' := LowRoom(res.left, res.right), HighRoom(res.left, res.right);
    ChangeDiffRooms(diff, l, r);
    RoomKept(LowRoom(l, r), HighRoom(l, r), w, diff, a', b');
    assert w - diff == top - target;
    ChangeDiffRoom(top - target, lo', hi');
    assert LowRoom(lo', hi') == a' && HighRoom(lo', hi') == b';
  }
}

=== FILE: results.dfy ===
/** The success-or-error value every fallible operation of the model returns
    in place of a raised exception. */
module Results {

  datatype Result<+T, +E> = Success(value: T) | Failure(error: E)
}

=== FILE: trim_example.dfy ===
/** A concrete input on which the final-slot trim of `pvd_unstore` changes
    the payload, worked out through the general read-back theorem. */
module TrimExample {
  import opened Bits
  import opened Quantize
  import opened Pvd

  /** The difference 128 is past the first twelve table boundaries. */
  lemma Bisect128()
    ensures BisectRight(Bounds, 128) == 12
  {
    BisectAt(Bounds, 128, 12);
  }

  /** The table entry of the difference 128. */
  lemma Table128()
    ensures Embending(128) == Range(128, 6, 191)
  {
    Bisect128();
    assert Log2(64) == 6;
  }

  /** The pair `(50, 178)` passes the probe and carries six bits. */
  lemma SampleSlot()
    ensures Usable(Slot(50, 178)) && Width(Slot(50, 178)) == 6
  {
    hide Embending;
    var s := Slot(50, 178);
    assert Dif(s) == 128;
    assert RangeOf(s) == Range(128, 6, 191) by {
      Table128();
    }
    assert ChangeDiff(63, 50, 178).ok;
  }

  /** Copies of one usable slot give copies of its width. */
  lemma {:induction false} PlanUniform(slots: seq<Slot>, s: Slot)
    requires Usable(s) && forall i | 0 <= i < |slots| :: slots[i] == s
    ensures |Plan(slots)| == |slots| && forall i | 0 <= i < |slots| :: Plan(slots)[i] == Width(s)
  {
    if slots != [] {
      PlanUniform(slots[1..], s);
      assert Plan(slots) == [Width(s)] + Plan(slots[1..]);
    }
  }

  /** `k` widths of `w` bits add up to `k * w` bits. */
  lemma {:induction false} SumUniform(ws: seq<nat>, w: nat)
    requires forall i | 0 <= i < |ws| :: ws[i] == w
    ensures Sum(ws) == |ws| * w
  {
    if ws != [] {
      SumUniform(ws[1..], w);
    }
  }

  /** Cutting a concatenation inside its first part. */
  lemma SplitAt<T>(a: seq<T>, b: seq<T>, n: nat)
    requires n <= |a|
    ensures (a + b)[..n] == a[..n] && (a + b)[n..] == a[n..] + b
    ensures a[..n] + (a[n..] + b) == a + b
  {
  }

  /** The slots wholly inside the stream are rebuilt unchanged: only the
      part after them depends on the rule. */
  lemma {:induction false} RecoveredSkip(ws: seq<nat>, a: seq<bool>, b: seq<bool>, rule: TailRule, j: nat)
    requires j <= |ws| && Sum(ws[..j]) == |a|
    ensures Recovered(ws, a + b, rule) == a + Recovered(ws[j..], b, rule)
  {
    hide Recovered;
    if j == 0 {
      assert a == [] && a + b == b && ws[0..] == ws;
    } else {
      var n := ws[0];
      assert ws[..j] == [n] + ws[1..][..j - 1];
      assert ([n] + ws[1..][..j - 1])[1..] == ws[1..][..j - 1];
      assert Sum(ws[1..][..j - 1]) == |a| - n && n <= |a|;
      RecoveredSkip(ws[1..], a[n..], b, rule, j - 1);
      assert ws[1..][j - 1..] == ws[j..];
      var r := Recovered(ws[j..], b, rule);
      SplitAt(a, b, n);
      if a + b != [] {
        RecoveredCons(ws, a + b, rule);
        AppendAssoc(a[..n], a[n..], r, a);
      }
    }
  }

  /** `bin(8)` and `bin(65)`. */
  lemma Binary65()
    ensures ToBinary(8) == [true, false, false, false]
    ensures ToBinary(65) == [true, false, false, false, false, false, true]
  {
    assert ToBinary(1) == [true];
    assert ToBinary(2) == [true, false];
    assert ToBinary(4) == [true, false, false];
    assert ToBinary(8) == [true, false, false, false];
    assert ToBinary(16) == [true, false, false, false, false];
    assert ToBinary(32) == [true, false, false, false, false, false];
  }

  /** The body of the payload `0x41`: one pad zero, then `1000001`. */
  lemma Payload65(p: seq<byte>)
    requires p == [0x41]
    ensures PayloadBits(p) == [false, true, false, false, false, false, false, true]
  {
    Binary65();
    assert BytesToNat(p) == 65 by {
      assert p[..0] == [];
    }
    assert Zeros(1) == [false];
  }

  /** The header of an eight-bit body. */
  lemma Header8()
    ensures FixedBits(8, 32) == Zeros(28) + [true, false, false, false]
  {
    Binary65();
    assert Pow2(32) > 8 by {
      Pow2Monotone(4, 32);
      assert Pow2(4) == 16;
    }
  }

  /** The whole frame of the payload `0x41`. */
  lemma Frame65(p: seq<byte>)
    requires p == [0x41]
    ensures PvdFrame(p) == Zeros(28) + [true, false, false, false, false, true, false, false, false, false, false, true]
  {
    hide FixedBits, PayloadBits, Zeros;
    var body := [false, true, false, false, false, false, false, true];
    var head := [true, false, false, false];
    Payload65(p);
    Header8();
    assert PvdFrame(p) == FixedBits(8, 32) + body;
    AppendAssoc(Zeros(28), head, body, Zeros(28) + head);
  }

  /** Where the 40-bit frame is cut around its last slot. */
  lemma FrameCut(z: seq<bool>, l: seq<bool>)
    requires |z| == 28 && |l| == 12
    ensures |z + l| == 40 && (z + l)[..36][32..] == l[4..8] && (z + l)[36..] == l[8..]
  {
  }

  /** The frame of the one-byte payload `0x41`, around the 36th bit. */
  lemma Frame65Parts(p: seq<byte>)
    requires p == [0x41]
    ensures |PvdFrame(p)| == 40
    ensures PvdFrame(p)[..36][32..] == [false, true, false, false]
    ensures PvdFrame(p)[36..] == [false, false, false, true]
  {
    hide PvdFrame, Zeros;
    Frame65(p);
    var l := [true, false, false, false, false, true, false, false, false, false, false, true];
    FrameCut(Zeros(28), l);
    assert l[4..8] == [false, true, false, false] && l[8..] == [false, false, false, true];
  }

  /** The last four bits `0001` fill a six-bit slot as `000100`; the trim
      strips that to `100` and zero-fills it to `0100`. */
  lemma TailOf65()
    ensures RefillTail([false, false, false, true], 6) == [false, true, false, false]
  {
    var rest := [false, false, false, true];
    var c := [false, false, false, true, false, false];
    assert Chunk(rest, 6) == c by {
      assert Zeros(2) == [false, false];
    }
    assert LStrip(c) == [true, false, false] by {
      StripThree(c);
    }
    assert ZFill([true, false, false], 4) == [false, true, false, false] by {
      assert Zeros(1) == [false];
    }
  }

  /** Three leading zeros stripped. */
  lemma StripThree(c: seq<bool>)
    requires c == [false, false, false, true, false, false]
    ensures LStrip(c) == [true, false, false]
  {
    assert c[1..][1..][1..] == [true, false, false];
    assert LStrip(c) == LStrip(c[1..]) == LStrip(c[1..][1..]) == LStrip(c[1..][1..][1..]);
  }

  /** The bits `01000100` read as the byte 68 (`0x44`). */
  lemma Byte68()
    ensures BitsToBytes([false, true, false, false, false, true, false, false]) == [68]
  {
    var q := [false, true, false, false, false, true, false, false];
    assert BitsToNat(q[..1]) == 0 by { assert q[..1][..0] == []; }
    assert BitsToNat(q[..2]) == 1 by { assert q[..2][..1] == q[..1]; }
    assert BitsToNat(q[..3]) == 2 by { assert q[..3][..2] == q[..2]; }
    assert BitsToNat(q[..4]) == 4 by { assert q[..4][..3] == q[..3]; }
    assert BitsToNat(q[..5]) == 8 by { assert q[..5][..4] == q[..4]; }
    assert BitsToNat(q[..6]) == 17 by { assert q[..6][..5] == q[..5]; }
    assert BitsToNat(q[..7]) == 34 by { assert q[..7][..6] == q[..6]; }
    assert BitsToNat(q) == 68 by { assert q[..7] == q[..|q| - 1]; }
  }

  /** Seven copies of the pair `(50, 178)`: difference 128, in the
      interval 128 .. 191, six bits each. */
  predicate SevenSamples(slots: seq<Slot>)
  {
    |slots| == 7 && forall i | 0 <= i < 7 :: slots[i] == Slot(50, 178)
  }

  /** The layout of seven pairs `(50, 178)`: seven six-bit slots. */
  lemma TrimPlan(slots: seq<Slot>)
    requires SevenSamples(slots)
    ensures |Plan(slots)| == 7 && (forall i | 0 <= i < 7 :: Plan(slots)[i] == 6)
    ensures Capacity(slots) == 42
  {
    SampleSlot();
    PlanUniform(slots, Slot(50, 178));
    SumUniform(Plan(slots), 6);
  }

  /** Over seven six-bit slots a 40-bit stream is rebuilt unchanged up to
      bit 36; the last four bits go through the trim. */
  lemma RecoveredSevenSixes(ws: seq<nat>, f: seq<bool>)
    requires |f| == 40 && |ws| == 7 && forall i | 0 <= i < 7 :: ws[i] == 6
    ensures Recovered(ws, f, StripAndRefill) == f[..36] + RefillTail(f[36..], 6)
  {
    hide RefillTail;
    SumUniform(ws[..6], 6);
    assert f[..36] + f[36..] == f;
    RecoveredSkip(ws, f[..36], f[36..], StripAndRefill, 6);
    assert Recovered(ws[6..], f[36..], StripAndRefill) == RefillTail(f[36..], 6) by {
      assert ws[6..] == [6];
    }
  }

  /** What the as-written rule recovers of the frame of `0x41` over seven
      six-bit slots. */
  lemma TrimRecovered(slots: seq<Slot>, p: seq<byte>)
    requires SevenSamples(slots) && p == [0x41]
    ensures Capacity(slots) == 42 && |PvdFrame(p)| == 40
    ensures Recovered(Plan(slots), PvdFrame(p), StripAndRefill)[32..]
      == [false, true, false, false, false, true, false, false]
  {
    TrimPlan(slots);
    Frame65Parts(p);
    var f := PvdFrame(p);
    RecoveredSevenSixes(Plan(slots), f);
    TailOf65();
    var a, t := f[..36], RefillTail(f[36..], 6);
    assert t == [false, true, false, false];
    SplitAt(a, t, 32);
    assert (a + t)[32..] == a[32..] + t;
    JoinNibbles(a[32..], t);
  }

  /** Two nibbles `0100` make the byte `01000100`. */
  lemma JoinNibbles(x: seq<bool>, y: seq<bool>)
    requires x == [false, true, false, false] && y == [false, true, false, false]
    ensures x + y == [false, true, false, false, false, true, false, false]
  {
  }

  /** The final-slot trim at work: the one-byte payload `0x41` written
      into seven pairs `(50, 178)` is read back as `0x44`. */
  lemma TrimCounterexample(slots: seq<Slot>, p: seq<byte>)
    requires SevenSamples(slots) && p == [0x41]
    ensures PvdUnstore(PvdStore(slots, p)) == [0x44]
  {
    TrimRecovered(slots, p);
    Byte68();
    assert Pow2(32) > 8 by {
      Pow2Monotone(4, 32);
      assert Pow2(4) == 16;
    }
    PvdReadBack(slots, p);
  }
}

=== FILE: utf8.dfy ===
/** Python's strict UTF-8 codec, `str.encode('utf-8')` and
    `bytes.decode('utf-8')`, on strings of Unicode scalar values. The
    decoder accepts exactly the well-formed byte sequences of table 3-7 of
    the Unicode Standard (no overlong forms, no surrogates, nothing above
    U+10FFFF). */
module Utf8 {
  import opened Bits
  import opened Results

  /** `UnicodeDecodeError`, at the offset of the first byte that does not
      start a well-formed sequence. */
  datatype DecodeError = DecodeError(offset: nat)

  predicate Continuation(b: byte)
  {
    0x80 <= b <= 0xBF
  }

  /** The bytes of one scalar value. */
  function EncodeChar(c: char): (e: seq<byte>)
    ensures 1 <= |e| <= 4
    ensures |e| == (if c as int < 0x80 then 1 else if c as int < 0x800 then 2 else if c as int < 0x10000 then 3 else 4)
  {
    var v := c as int;
    if v < 0x80 then [v]
    else if v < 0x800 then [0xC0 + v / 64, 0x80 + v % 64]
    else if v < 0x10000 then [0xE0 + v / 4096, 0x80 + v / 64 % 64, 0x80 + v % 64]
    else [0xF0 + v / 262144, 0x80 + v / 4096 % 64, 0x80 + v / 64 % 64, 0x80 + v % 64]
  }

  /** `s.encode('utf-8')`: one to four bytes per character, exactly one
      each when every character is ASCII. */
  function Encode(s: string): (b: seq<byte>)
    ensures |s| <= |b| <= 4 * |s|
    ensures (forall i | 0 <= i < |s| :: s[i] as int < 0x80) ==> |b| == |s|
  {
    if s == [] then [] else EncodeChar(s[0]) + Encode(s[1..])
  }

  /** The length of the well-formed sequence that starts `b`, or 0 when
      `b` does not start with one. */
  function SequenceLength(b: seq<byte>): (n: nat)
    ensures n <= 4 && n <= |b|
    ensures n > 0 ==> forall i | 1 <= i < n :: Continuation(b[i])
  {
    if b == [] then 0
    else
      var b0 := b[0];
      if b0 < 0x80 then 1
      else if 0xC2 <= b0 <= 0xDF then
        if |b| >= 2 && Continuation(b[1]) then 2 else 0
      else if 0xE0 <= b0 <= 0xEF then
        var lo := if b0 == 0xE0 then 0xA0 else 0x80;
        var hi := if b0 == 0xED then 0x9F else 0xBF;
        if |b| >= 3 && lo <= b[1] <= hi && Continuation(b[2]) then 3 else 0
      else if 0xF0 <= b0 <= 0xF4 then
        var lo := if b0 == 0xF0 then 0x90 else 0x80;
        var hi := if b0 == 0xF4 then 0x8F else 0xBF;
        if |b| >= 4 && lo <= b[1] <= hi && Continuation(b[2]) && Continuation(b[3]) then 4 else 0
      else 0
  }

  /** The scalar value of the well-formed sequence of length `n` that
      starts `b`. */
  function DecodeChar(b: seq<byte>, n: nat): (c: char)
    requires n > 0 && n == SequenceLength(b)
  {
    var b0: int := b[0];
    if n == 1 then b0 as char
    else
      var b1: int := b[1] - 0x80;
      if n == 2 then ((b0 - 0xC0) * 64 + b1) as char
      else
        var b2: int := b[2] - 0x80;
        if n == 3 then ((b0 - 0xE0) * 4096 + b1 * 64 + b2) as char
        else
          var b3: int := b[3] - 0x80;
          ((b0 - 0xF0) * 262144 + b1 * 4096 + b2 * 64 + b3) as char
  }

  /** `b.decode('utf-8')`, counting offsets from `at`. */
  function DecodeFrom(b: seq<byte>, at: nat): (r: Result<string, DecodeError>)
    ensures r.Success? ==> |r.value| <= |b|
    ensures r.Failure? ==> at <= r.error.offset < at + |b|
    decreases |b|
  {
    if b == [] then Success([])
    else
      var n := SequenceLength(b);
      if n == 0 then Failure(DecodeError(at))
      else
        match DecodeFrom(b[n..], at + n)
        case Success(rest) => Success([DecodeChar(b, n)] + rest)
        case Failure(e) => Failure(e)
  }

  /** `b.decode('utf-8')`: on success, the characters whose encoding `b`
      is; on failure, the offset of a byte inside `b`. */
  function Decode(b: seq<byte>): (r: Result<string, DecodeError>)
    ensures r.Success? ==> |r.value| <= |b| && Encode(r.value) == b
    ensures r.Failure? ==> r.error.offset < |b|
  {
    var r := DecodeFrom(b, 0);
    if r.Success? then EncodeDecode(b, 0); r else r
  }

  /** The decoder recognises the bytes of one scalar value, whatever
      follows them. */
  lemma SequenceOfChar(c: char, rest: seq<byte>)
    ensures SequenceLength(EncodeChar(c) + rest) == |EncodeChar(c)|
  {
    var e, v := EncodeChar(c), c as int;
    var b := e + rest;
    assert b[..|e|] == e;
    if v < 0x80 {
    } else if v < 0x800 {
      assert b[0] == 0xC0 + v / 64 && 2 <= v / 64 < 32;
      assert b[1] == e[1];
    } else if v < 0x10000 {
      var q, m := v / 4096, v / 64 % 64;
      assert b[0] == 0xE0 + q && b[1] == 0x80 + m && b[2] == e[2];
      assert q == 0 ==> m >= 0x20;
      assert q == 0xD ==> m < 0x20;
    } else {
      var q, m := v / 262144, v / 4096 % 64;
      assert b[0] == 0xF0 + q && b[1] == 0x80 + m && b[2] == e[2] && b[3] == e[3];
      assert q <= 4;
      assert q == 0 ==> m >= 0x10;
      assert q == 4 ==> m < 0x10;
    }
  }

  /** A value split into base-64 digits, the way the encoder splits it. */
  lemma Digits2(v: int)
    requires 0 <= v
    ensures (v / 64) * 64 + v % 64 == v
  {
  }

  lemma Digits3(v: int)
    requires 0 <= v
    ensures (v / 4096) * 4096 + (v / 64 % 64) * 64 + v % 64 == v
  {
    var q := v / 64;
    Digits2(v);
    Digits2(q);
    assert q / 64 == v / 4096;
  }

  lemma Digits4(v: int)
    requires 0 <= v
    ensures (v / 262144) * 262144 + (v / 4096 % 64) * 4096 + (v / 64 % 64) * 64 + v % 64 == v
  {
    var q := v / 64;
    Digits3(q);
    Digits2(v);
    assert q / 4096 == v / 262144;
    assert q / 64 == v / 4096;
  }

  /** The decoder reads back the scalar value of its bytes. */
  lemma DecodeOfChar(c: char, rest: seq<byte>)
    ensures SequenceLength(EncodeChar(c) + rest) == |EncodeChar(c)|
    ensures DecodeChar(EncodeChar(c) + rest, |EncodeChar(c)|) == c
  {
    SequenceOfChar(c, rest);
    var e, v := EncodeChar(c), c as int;
    var b := e + rest;
    assert b[..|e|] == e;
    if |e| == 2 {
      Digits2(v);
    } else if |e| == 3 {
      Digits3(v);
    } else if |e| == 4 {
      Digits4(v);
    }
  }

  /** Base-64 digits joined, the way the decoder joins them, split back
      into the same digits. */
  lemma Undigits2(x: int, y: int)
    requires 0 <= x && 0 <= y < 64
    ensures (x * 64 + y) / 64 == x && (x * 64 + y) % 64 == y
  {
  }

  lemma Undigits3(x: int, y: int, z: int)
    requires 0 <= x && 0 <= y < 64 && 0 <= z < 64
    ensures var v := x * 4096 + y * 64 + z;
      v / 4096 == x && v / 64 % 64 == y && v % 64 == z
  {
    Undigits2(x * 64 + y, z);
    Undigits2(x, y);
    var v := x * 4096 + y * 64 + z;
    assert v == (x * 64 + y) * 64 + z;
    assert v / 64 == x * 64 + y;
  }

  lemma Undigits4(w: int, x: int, y: int, z: int)
    requires 0 <= w && 0 <= x < 64 && 0 <= y < 64 && 0 <= z < 64
    ensures var v := w * 262144 + x * 4096 + y * 64 + z;
      v / 262144 == w && v / 4096 % 64 == x && v / 64 % 64 == y && v % 64 == z
  {
    Undigits3(w * 64 + x, y, z);
    Undigits2(w, x);
    var v := w * 262144 + x * 4096 + y * 64 + z;
    assert v == (w * 64 + x) * 4096 + y * 64 + z;
    assert v / 4096 == w * 64 + x;
    assert v / 262144 == v / 4096 / 64;
  }

  /** The bytes of the scalar value of a well-formed sequence are that
      sequence: the decoder takes no overlong form. */
  lemma EncodeOfSequence(b: seq<byte>)
    requires SequenceLength(b) > 0
    ensures EncodeChar(DecodeChar(b, SequenceLength(b))) == b[..SequenceLength(b)]
  {
    var n := SequenceLength(b);
    if n == 2 {
      EncodeOfPair(b);
    } else if n == 3 {
      EncodeOfTriple(b);
    } else if n == 4 {
      EncodeOfQuad(b);
    }
  }

  /** `EncodeOfSequence` for sequences of two, three and four bytes. */
  lemma EncodeOfPair(b: seq<byte>)
    requires SequenceLength(b) == 2
    ensures EncodeChar(DecodeChar(b, 2)) == b[..2]
  {
    Undigits2(b[0] as int - 0xC0, b[1] as int - 0x80);
  }

  lemma EncodeOfTriple(b: seq<byte>)
    requires SequenceLength(b) == 3
    ensures EncodeChar(DecodeChar(b, 3)) == b[..3]
  {
    Undigits3(b[0] as int - 0xE0, b[1] as int - 0x80, b[2] as int - 0x80);
  }

  lemma EncodeOfQuad(b: seq<byte>)
    requires SequenceLength(b) == 4
    ensures EncodeChar(DecodeChar(b, 4)) == b[..4]
  {
    Undigits4(b[0] as int - 0xF0, b[1] as int - 0x80, b[2] as int - 0x80, b[3] as int - 0x80);
  }

  /** Decoding what was encoded gives the string back. */
  lemma {:induction false} DecodeEncode(s: string, at: nat)
    ensures DecodeFrom(Encode(s), at) == Success(s)
  {
    hide SequenceLength, DecodeChar;
    if s != [] {
      var e, rest := EncodeChar(s[0]), Encode(s[1..]);
      DecodeOfChar(s[0], rest);
      assert (e + rest)[|e|..] == rest;
      DecodeEncode(s[1..], at + |e|);
      assert [s[0]] + s[1..] == s;
    }
  }

  /** What the decoder accepts, encoding gives back byte for byte. */
  lemma {:induction false} EncodeDecode(b: seq<byte>, at: nat)
    requires DecodeFrom(b, at).Success?
    ensures Encode(DecodeFrom(b, at).value) == b
    decreases |b|
  {
    hide SequenceLength, DecodeChar, EncodeChar;
    if b != [] {
      var n := SequenceLength(b);
      EncodeDecode(b[n..], at + n);
      EncodeOfSequence(b);
      var s := DecodeFrom(b, at).value;
      assert s[0] == DecodeChar(b, n) && s[1..] == DecodeFrom(b[n..], at + n).value;
      assert b[..n] + b[n..] == b;
    }
  }

  /** `Decode` and `Encode` are mutually inverse: a byte string decodes to
      `s` exactly when it is the encoding of `s`. */
  lemma DecodeIff(b: seq<byte>, s: string)
    ensures Decode(b) == Success(s) <==> b == Encode(s)
  {
    if Decode(b) == Success(s) {
      EncodeDecode(b, 0);
    }
    if b == Encode(s) {
      DecodeEncode(s, 0);
    }
  }
}
